=== FILE: README.md ===
# WeChat mini-program backend: a Dafny model

This project models the request handling of a small Flask backend that serves a
WeChat mini-program. It covers four features:

- **Carbon calculator.** `POST /api/estimate` takes a fuel section and an
  electricity section. It multiplies each by its fixed emission factor and
  returns scope 1, scope 2 and total emissions rounded to four decimals.
- **Pollution heatmap.** `POST /api/heatmap/generate` takes a workbook of
  sample points and a JSON options field. It reads each option it uses,
  falling back to a default when the key is absent. It then interpolates the samples on a lattice over the region's
  boundary, using kriging or radial basis functions. Finally it clips the
  picture to the region, draws the requested map layers, and sets the axes
  window.
- **Map point store.** `POST /map/upload` renames the Chinese column headers
  of a workbook, checks the four required columns and keeps the rows as
  records. `GET /map/get-data` hands the records back with an `id` each.
- **Weather.** Four fetchers read through a 15-minute weather cache and a
  6-hour history cache: coordinates, the realtime bundle, the day history and
  the 30-day forecast. Beside them are the tile-URL templates for the map
  layers and the routes over all of these, including the tile proxy with its
  op-code whitelist.

The application factory in app/__init__.py registers only the calculator and
map blueprints. The heatmap and weather routes are modelled as written, but the
shipped factory does not serve them.

The model is written in pure functions over immutable values:

- JSON is a datatype that keeps Python's distinction between `int` and
  `float`. Objects are ordered key/value lists.
- Python truthiness and `dict.get` are spelled out in `Json`.
- An exception that escapes a function becomes `Raised` of a `Result`. A
  broad `except` that answers `None` becomes `Option`.
- The caches are maps. A fetcher returns its result, the caches afterwards
  and the list of upstream calls it made.
- What the code cannot see becomes a parameter:
  - the geocoder and data endpoints
  - the tile server
  - the interpolation library
  - the region files
  - the colour-map registry
  - the JSON decoder
  - the PNG encoder
  - the `float()` parser for text

Files, one module each:

| file | module | what |
|---|---|---|
| wrappers.dfy | Wrappers | Option and Result |
| json.dfy | Json | decoded JSON, truthiness, `dict.get` |
| text.dfy | Text | substring search, decimal digits |
| tables.dfy | Tables | a workbook sheet, its columns and its `records` view |
| carbon_estimator.dfy | CarbonEstimator | `CarbonEstimator` |
| calculator_routes.dfy | CalculatorRoutes | `/api/estimate` |
| heatmap_service.dfy | HeatmapService | `create_heatmap_image` |
| heatmap_routes.dfy | HeatmapRoutes | `/api/heatmap/generate` |
| map_routes.dfy | MapRoutes | `/map/upload`, `/map/get-data` |
| weather_service.dfy | WeatherService | the fetchers, caches, date parsing and layer templates |
| weather_routes.dfy | WeatherRoutes | `/api/weather/...` |

## Model

| member | source | states |
|---|---|---|
| CarbonEstimator.FuelTable | app/services/carbon_estimator.py:15-20 | Four fuels carry a scope 1 factor: gas, diesel, gasoline and coal. |
| CarbonEstimator.GridTable | app/services/carbon_estimator.py:24-32 | Seven grid regions carry a scope 2 factor, National_Avg among them. |
| CarbonEstimator.FactorsPositive | app/services/carbon_estimator.py:15-32 | Every emission factor is positive. |
| CarbonEstimator.Scope1 | app/services/carbon_estimator.py:34-42 | A section in which the loop skips every item adds nothing to scope 1. |
| CarbonEstimator.Scope1IsWeightedFuelUse | app/services/carbon_estimator.py:34-42 | The item-by-item sum equals the sum over fuels of the fuel's factor times the total usable amount given for it. Non-fuel keys, `None` and unparsable amounts count for nothing. |
| CarbonEstimator.Scope1Append | app/services/carbon_estimator.py:34-42 | Scope 1 of two concatenated sections is the sum of their scope 1 values. |
| CarbonEstimator.SkippedItemAddsNothing | app/services/carbon_estimator.py:36-41 | An item the loop skips changes nothing, wherever it stands. This covers an unknown fuel, `None`, and a ValueError or TypeError from `float`. |
| CarbonEstimator.ItemOrderIrrelevant | app/services/carbon_estimator.py:34-42 | Reordering the two halves of the fuel section leaves scope 1 unchanged. |
| CarbonEstimator.Scope1NonNegative | app/services/carbon_estimator.py:34-42 | Non-negative amounts give non-negative scope 1. |
| CarbonEstimator.Scope2 | app/services/carbon_estimator.py:44-56 | Raises exactly when both the consumption and the region are truthy and the region is unhashable, because `in` on the factor table raises TypeError. A billable meter gives kWh/1000 times the region's factor. Everything else gives 0. |
| CarbonEstimator.Scope2OfMeter | app/services/carbon_estimator.py:44-56 | A meter in a known region costs kWh/1000 times that region's factor. |
| CarbonEstimator.Scope2Linear | app/services/carbon_estimator.py:50-56 | Scope 2 scales linearly with consumption. |
| CarbonEstimator.Scope2UnknownRegion | app/services/carbon_estimator.py:46-48 | A region name that is not in the table gives 0. |
| CarbonEstimator.Scope2NonNegative | app/services/carbon_estimator.py:44-56 | A non-negative billable consumption gives non-negative scope 2. |
| CarbonEstimator.Round4Units | app/services/carbon_estimator.py:63-65 | `round(x, 4)` lands on the nearest ten-thousandth, and ties go to the even neighbour. |
| CarbonEstimator.Round4Close | app/services/carbon_estimator.py:63-65 | Rounding moves a value by at most half a ten-thousandth. |
| CarbonEstimator.Round4Fixes | app/services/carbon_estimator.py:63-65 | A value already on four decimals is unchanged by rounding. |
| CarbonEstimator.Round4NonNegative | app/services/carbon_estimator.py:63-65 | Rounding keeps a non-negative value non-negative. |
| CarbonEstimator.TotalNearSumOfParts | app/services/carbon_estimator.py:58-66 | The rounded total is within one ten-thousandth of the sum of the rounded parts. |
| CarbonEstimator.TotalIsNotSumOfRoundedParts | app/services/carbon_estimator.py:61-66 | The total is rounded from the unrounded sum, so it can differ from the sum of the rounded parts. Example: 0.00005 + 0.00005. |
| CarbonEstimator.EstimateTotal | app/services/carbon_estimator.py:58-66 | Succeeds exactly when both sections are objects and scope 2 does not raise. Scope 1 is the rounded weighted fuel use, scope 2 the rounded scope 2 figure, and the total the rounded unrounded sum. |
| CarbonEstimator.EstimateNonNegative | app/services/carbon_estimator.py:58-66 | Non-negative amounts give three non-negative figures. |
| CarbonEstimator.EmptyRequestIsZero | app/services/carbon_estimator.py:58-66 | Two empty sections give three zeros. |
| CalculatorRoutes.Section | app/views/calculator_routes.py:25-26 | A missing section defaults to `{}`. Otherwise the section is the value stored under its key. |
| CalculatorRoutes.Estimate | app/views/calculator_routes.py:14-32 | 400 exactly for a parsed but falsy body. 200 with data exactly for a truthy object whose estimate succeeds, with the data being that estimate. Every other case is a 500 without data, including an unreadable body. |
| CalculatorRoutes.NoSectionsIsZero | app/views/calculator_routes.py:25-29 | A non-empty body without either section yields 200 and three zeros. |
| CalculatorRoutes.NonObjectSectionIsError | app/views/calculator_routes.py:25-32 | A section that is present but not an object makes the estimator raise, and the answer is 500. |
| HeatmapService.Samples | app/services/heatmap_service.py:34-36 | Reading the samples fails exactly when the longitude, latitude or concentration column is missing. Otherwise it gives one sample per row, made of that row's cells under the first column of each of the three names. |
| HeatmapService.SelectMethod | app/services/heatmap_service.py:48-66 | RBF is chosen exactly for the string "rbf". Anything else, absent included, uses kriging. |
| HeatmapService.Axis | app/services/heatmap_service.py:44-54 | The lattice axis has `n` points from `lo` to `hi` with equal steps. |
| HeatmapService.GridsAgree | app/services/heatmap_service.py:50-66 | Two grids are the same x-by-y grid: kriging's transposed `execute('grid')` result and RBF's values on the `mgrid` arrays. |
| HeatmapService.Interpolate | app/services/heatmap_service.py:39-66 | Succeeds exactly when the region resolves, has a boundary, the resolution resolves and the requested method's fit succeeds. The result names the resolved region, has as many lattice points per axis as the resolved resolution, uses the requested method, spans the boundary's bounds, and its grid samples that fit. Each lattice axis is the evenly spaced `linspace` from the boundary's minimum to its maximum. |
| HeatmapService.LargestPart | app/services/heatmap_service.py:83-85 | `max(..., key=area)` returns the first part of greatest area. |
| HeatmapService.ClipRing | app/services/heatmap_service.py:79-88 | A polygon clips to its exterior and a multipolygon to its largest part's exterior. Other geometry does not clip. An empty multipolygon raises. |
| HeatmapService.LayerKindOf | app/services/heatmap_service.py:94-101 | The layer kind is decided by case-sensitive substring tests in the source's order. Each kind holds exactly when its test holds and no earlier test did. |
| HeatmapService.StackingOrder | app/services/heatmap_service.py:94-108 | Every layer is drawn above the raster and below the boundary and points. Roads and rails sit at z 3, the others at z 2. |
| HeatmapService.StrokeOf | app/services/heatmap_service.py:94-101 | Only rails are dashed and only the plain kind is dotted. Roads and water are translucent, and only water is filled. Roads and rails sit at z 3, the others at z 2. |
| HeatmapService.RailroadIsRoad | app/services/heatmap_service.py:94-99 | "railroad" is drawn as a road, because the road test comes first. |
| HeatmapService.WaterBeforeRail | app/services/heatmap_service.py:94-99 | "river_rail" is drawn as water. |
| HeatmapService.CapitalisedRoadIsPlain | app/services/heatmap_service.py:94-101 | "Road" matches no test and is drawn plain. |
| HeatmapService.DrawLayers | app/services/heatmap_service.py:90-101 | Only requested layers whose file exists are drawn, each with the stroke its kind selects. |
| HeatmapService.DrawLayersAppend | app/services/heatmap_service.py:90-101 | The layers are drawn in request order. Drawing two request lists is drawing each in turn. |
| HeatmapService.AvailableLayersDrawn | app/services/heatmap_service.py:90-93 | Every requested layer whose file exists is drawn. |
| HeatmapService.Number | app/services/heatmap_service.py:122-123 | A value is a number to matplotlib exactly when it is an int, a float or a bool. |
| HeatmapService.Limit | app/services/heatmap_service.py:122-123 | One limit argument: null keeps the current limit, a number sets it, and anything else raises. |
| HeatmapService.Limits | app/services/heatmap_service.py:122-123 | The two arguments of one `set_xlim` or `set_ylim` call. A list as the first argument with a null second is unpacked as the pair of limits, and it raises unless it has exactly two usable limits. Otherwise each argument is one limit. |
| HeatmapService.ResolveCity | app/services/heatmap_service.py:39-41 | Only text works as a region. Absent means taiyuangeo, and given text is used as it is. |
| HeatmapService.ResolveResolution | app/services/heatmap_service.py:45-46 | A resolution is accepted exactly when it is absent or a positive integer. Absent means 200, and a given integer is used as it is. |
| HeatmapService.ResolveColormap | app/services/heatmap_service.py:72-76 | Accepted exactly when absent with jet registered, null, or a registered name. Absent means jet, null means the configured default, and a registered name is used as it is. |
| HeatmapService.ResolveLayerNames | app/services/heatmap_service.py:90 | `for` works exactly on absent, a string, an object, or a list of strings. Absent means no layers. A list gives its strings in order, a string its characters, and an object its keys. |
| HeatmapService.ResolveOverlay | app/services/heatmap_service.py:105-108 | Points are drawn only when `show_points` is truthy. Then an absent size means 20, null means the configured size, and a given int or float is the marker area. Any other size raises. |
| HeatmapService.ExtentWindow | app/services/heatmap_service.py:121-123 | The window is set exactly when both calls accept their arguments, including a pair unpacked from a list. Each number sets its limit, and each null keeps the current one. |
| HeatmapService.NoExtentUsesDefaultWindow | app/services/heatmap_service.py:118-127 | An absent or falsy extent gives the fixed window 111.4-113.3 by 37.2-38.5. |
| HeatmapService.PartialExtentSetsNoLimits | app/services/heatmap_service.py:118-123 | A truthy extent that lacks one of the four keys sets no limits at all. |
| HeatmapService.FullExtentSetsLimits | app/services/heatmap_service.py:118-123 | An extent with all four keys holding floats sets exactly those limits. |
| HeatmapService.NullLimitKeepsCurrent | app/services/heatmap_service.py:118-123 | A null `xmin` in a full extent keeps that limit and sets the other three. |
| HeatmapService.PairedLimitsSetBoth | app/services/heatmap_service.py:118-123 | A two-element list under `xmin` with a null `xmax` sets both x limits from the list. |
| HeatmapService.ResolveView | app/services/heatmap_service.py:118-127 | An absent or falsy extent gives the fixed window. A truthy dict, string or list without all four names sets no limits. A dict with all four is resolved by its four values. A string or list with all four, and any other truthy value, raises. It succeeds exactly in the cases listed. |
| HeatmapService.ObjectExtent | app/services/heatmap_service.py:118-123 | An object with all four keys is resolved by reading the four values. |
| HeatmapService.Style | app/services/heatmap_service.py:72-127 | Styling succeeds exactly when the colour map resolves, the first boundary feature gives a clip ring, the layer names resolve, every requested layer file that exists can be read, and the overlay and extent resolve. The result uses the resolved colour map and that clip ring. It draws the resolved layer names that have files, and uses the resolved overlay and view. |
| HeatmapService.Render | app/services/heatmap_service.py:32-142 | The `try` block succeeds exactly when there is a workbook with the sample columns, the options are an object, and interpolation and styling succeed. The figure carries that interpolation, the styling for the chosen region's assets, and the fixed title and colour-bar label. |
| HeatmapService.CreateHeatmapImage | app/services/heatmap_service.py:32-146 | A figure comes back exactly when there is a workbook with the sample columns, the options are an object, and interpolation and styling succeed. Otherwise the result is None. The figure follows the options. It uses the resolved region, lattice size, method, colour map, layers, overlay and window. It carries the interpolation of the samples, so its lattice spans the boundary's bounds and its grid samples the fit. It clips to the ring of the boundary's first feature, and has the fixed title and colour-bar label. |
| HeatmapService.MissingBoundaryFails | app/services/heatmap_service.py:39-41 | A region without a boundary file gives None. |
| HeatmapService.UnreadableLayerFails | app/services/heatmap_service.py:90-93 | A requested layer whose file exists but cannot be read makes `read_file` raise, so there is no image. |
| HeatmapService.StyleReadsOnlyItsKeys | app/services/heatmap_service.py:72-127 | Options that agree on the styling keys style the same way. |
| HeatmapService.InterpolateReadsOnlyItsKeys | app/services/heatmap_service.py:39-66 | Options that agree on region, resolution and method choice interpolate the same way. |
| HeatmapService.RenderReadsOnlyChoices | app/services/heatmap_service.py:32-127 | Options that agree on all of these render the same way. |
| HeatmapService.PutMethodKeepsStyle | app/services/heatmap_service.py:48 | Setting `interpolation_method` changes no styling key. |
| HeatmapService.PutKrigingKeepsInterpolation | app/services/heatmap_service.py:48-66 | Asking for "kriging" in place of any other non-"rbf" value keeps the interpolation choices. |
| HeatmapService.UnknownMethodIsKriging | app/services/heatmap_service.py:48-66 | Any `interpolation_method` other than "rbf" draws exactly what "kriging" draws. |
| HeatmapService.EmptyOptionsUseDefaults | app/services/heatmap_service.py:39-127 | Empty options draw the defaults: taiyuangeo, kriging on a 200-point lattice, jet, no layers, no points, and the fixed window. |
| HeatmapService.DefaultsRender | app/services/heatmap_service.py:32-142 | With the default region's assets present, empty options do produce a figure. |
| HeatmapRoutes.OptionsText | app/views/heatmap_routes.py:29 | A missing options field reads as `{}`. |
| HeatmapRoutes.Generate | app/views/heatmap_routes.py:15-47 | Each case has its own answer: a missing part or empty file name gives 400, a JSON error gives 400, and other exceptions give 500. It answers 200 with the encoded image exactly when a figure is drawn and encodes to non-empty text, and 500 otherwise. |
| HeatmapRoutes.AbsentOptionsAreDefaults | app/views/heatmap_routes.py:29-39 | Leaving out options is sending `{}`, and the image uses the default region, method, colour map and window. |
| HeatmapRoutes.DefaultRequestSucceeds | app/views/heatmap_routes.py:20-39 | A readable default-region workbook with nothing else yields 200. |
| MapRoutes.RenameTargets | app/views/map_routes.py:27-30 | A column becomes a required name exactly when it is that name or that name's Chinese source header. |
| MapRoutes.RenameLeavesOthers | app/views/map_routes.py:27-30 | Other headers keep their names. |
| MapRoutes.RenameAll | app/views/map_routes.py:27-30 | The header keeps its length and order. A translated header becomes the required name whose source header it is. Every other column keeps its name. |
| MapRoutes.PresentAfterRename | app/views/map_routes.py:27-33 | A required column is present after renaming exactly when it or its source header was present before. |
| MapRoutes.Missing | app/views/map_routes.py:34 | The missing list holds exactly the required columns that are absent. |
| MapRoutes.MissingInOrder | app/views/map_routes.py:34 | The missing list keeps the required order. |
| MapRoutes.Upload | app/views/map_routes.py:13-42 | A missing file part or an empty file name gives 400, and an unreadable workbook gives 500. Success means 200, and every failure leaves the store unchanged. A success stores the renamed rows as records. |
| MapRoutes.AcceptedIffColumnsPresent | app/views/map_routes.py:32-38 | A named, readable workbook is accepted exactly when each required column, or its Chinese header, is present. |
| MapRoutes.RejectionListsMissing | app/views/map_routes.py:32-35 | A rejection is a 400 naming exactly the missing columns, in order. |
| MapRoutes.LatestUploadWins | app/views/map_routes.py:37-38 | An accepted upload replaces whatever was stored before. |
| MapRoutes.GetData | app/views/map_routes.py:45-51 | Nothing stored gives no points. Otherwise there is one point per record, with `id` equal to its index and every other field unchanged. |
| MapRoutes.GetDataRoundTrip | app/views/map_routes.py:47-49 | Dropping `id` from the points gives back the records without `id`. |
| Tables.RowRecordValue | app/views/map_routes.py:37 | In a record, a column name holds the cell of the last column with that name. |
| Tables.Records | app/views/map_routes.py:37 | There is one record per row. Under each column name a record holds that row's cell in the last column of that name. |
| Tables.Column | app/services/heatmap_service.py:35-36 | Selecting a column fails exactly when it is absent. Otherwise it has one cell per row, taken from the first column of that name. |
| Json.Get | app/views/calculator_routes.py:25-26 | `dict.get` finds a value exactly when the key is present, and the value is stored under that key. |
| Json.GetOrDefault | app/views/calculator_routes.py:25-26 | The default is used exactly when the key is absent. |
| Text.ContainsIffOccurs | app/services/heatmap_service.py:94-98 | Substring `in` holds exactly when the word occurs at some position. |
| Text.Decimal | app/views/weather_routes.py:78 | A non-negative integer's text is canonical decimal digits with that value. |
| Text.DecimalInjective | app/views/weather_routes.py:78 | Different tile coordinates give different text. |
| WeatherService.MonthField | app/services/weather_service.py:83 | `%m` reads one or two digits whose value is from 1 to 12. The value read is what those digits spell. |
| WeatherService.DayField | app/services/weather_service.py:83 | `%d` reads one or two characters, possibly a leading space, whose value is from 1 to 31. The value read is what those characters spell. |
| WeatherService.ParseDate | app/services/weather_service.py:83 | A parsed date is a real calendar date, read from text of 8 to 10 characters that starts with four digits then `-`. |
| WeatherService.MonthFieldReads | app/services/weather_service.py:83 | Every spelling of a month before a `-` is read back as that month. |
| WeatherService.DayFieldReads | app/services/weather_service.py:83 | Every spelling of a day at the end of the text is read back as that day. |
| WeatherService.ParseDateIffSpelled | app/services/weather_service.py:83 | Text parses to a date exactly when the date is a calendar date and the text spells it: four year digits, `-`, an accepted month spelling, `-`, an accepted day spelling. |
| WeatherService.ParseFormatRoundTrip | app/services/weather_service.py:83 | Every calendar date in zero-padded `YYYY-MM-DD` form parses back to itself. |
| WeatherService.ShortFormAccepted | app/services/weather_service.py:83 | Unpadded "2024-1-5" is accepted as 5 January 2024. |
| WeatherService.DayWindow | app/services/weather_service.py:83-86 | The history window runs from midnight to 23:59:59 of the same day: 86399 seconds. |
| WeatherService.WeatherKeysDistinct | app/services/weather_service.py:17 | The coords, bundle and forecast keys never collide with each other. Within a kind, each key determines its city. |
| WeatherService.HistoryKeyInjective | app/services/weather_service.py:77 | For valid dates, a history key determines its city and date. |
| WeatherService.CoordsFor | app/services/weather_service.py:15-35 | A hit answers from the cache with no call. A miss makes exactly one geocoding call. It gives None when the geocoder fails or finds nothing, and the first hit's coordinates otherwise. Only a found city is cached, and nothing else changes. |
| WeatherService.RealtimeBundle | app/services/weather_service.py:38-72 | A hit answers from the cache. On a miss, a bundle comes back exactly when the city has truthy coordinates and all three requests succeed. The bundle is the object of the current, forecast and air-quality bodies. The caches only grow, with at most the coords and bundle keys. A result is cached under the bundle key, a failure caches no bundle, and the cache invariant is kept. |
| WeatherService.BundlesAreShaped | app/services/weather_service.py:63-68 | Under the invariant, every bundle is an object with current, forecast and air_quality. |
| WeatherService.BundleNeedsAllThree | app/services/weather_service.py:52-69 | A fresh bundle needs three good answers, holds their bodies, and follows the three calls in order. |
| WeatherService.UndecodableAfterAllCalls | app/services/weather_service.py:54-72 | A body that is not JSON is noticed only after all three requests are sent. Nothing is cached. |
| WeatherService.HistoricalWeather | app/services/weather_service.py:75-115 | A hit comes first. A date that does not parse gives None with no call. With no coordinates the answer is None after the geocoding call alone. Otherwise one data call for the parsed day follows, and the result is its body exactly when it succeeds. A result is cached under the history key, and only that key and the coords key can be added. |
| WeatherService.HistoryAsksForWholeDay | app/services/weather_service.py:82-108 | A fresh history result asks for the parsed day from midnight to 23:59:59. |
| WeatherService.HitPrecedesDateCheck | app/services/weather_service.py:77-83 | ("a", "b_2024-01-01") and ("a_b", "2024-01-01") share a key. The invalid date is served from the cache. |
| WeatherService.ClimateForecast30 | app/services/weather_service.py:118-146 | A hit answers from the cache. With coordinates, one data call to the climate endpoint follows, and the result is its body exactly when it succeeds. A result is cached under its key, a failure is not, at most two keys are added, and the invariant is kept. |
| WeatherService.UnknownCityCachesNothing | app/services/weather_service.py:23-35 | A city the geocoder does not find leads to one call, None, and unchanged caches. |
| WeatherService.PieceText | app/services/weather_service.py:166-172 | A field without an argument raises KeyError. |
| WeatherService.Format | app/services/weather_service.py:166-172 | A successful `str.format` had an argument for every field. A template of literal text alone always succeeds. |
| WeatherService.FormatRaisesIffMissing | app/services/weather_service.py:166-172 | `str.format` raises exactly when some field lacks an argument. |
| WeatherService.FormatMapUrl | app/services/weather_service.py:154 | The tile template filled from the five fields is host, op, z, x and y joined by `/`, then `?appid=` and the key. |
| WeatherService.LayerOpsContents | app/services/weather_service.py:156-162 | Five layers map to the op codes PR0, TA2, CL, WS10 and APM. |
| WeatherService.LayerUrlShape | app/services/weather_service.py:164-172 | A layer URL keeps `{z}/{x}/{y}` literal and fills in the op code and key. |
| WeatherService.MapLayerUrls | app/services/weather_service.py:149-173 | There is one URL per layer, built from that layer's op code. |
| WeatherRoutes.Realtime | app/views/weather_routes.py:16-29 | An empty city gives 400. Otherwise the answer is 404 exactly when the bundle is falsy, and 200 with the bundle otherwise. |
| WeatherRoutes.RealtimeNotFoundIffNoBundle | app/views/weather_routes.py:24-27 | Under the cache invariant, 404 means exactly that no bundle came back. |
| WeatherRoutes.History | app/views/weather_routes.py:32-45 | A missing or empty date gives 400 with the caches untouched. Otherwise the answer is 404 exactly when the data is None or a JSON null, and 200 with the data otherwise. |
| WeatherRoutes.NullHistoryStaysNotFound | app/services/weather_service.py:106-112 | A history body that decodes to null gives 404, is cached, and every later request for it is served the same 404 from the cache. |
| WeatherRoutes.MalformedDateIsNotFound | app/views/weather_routes.py:37-43 | A date that does not parse gives 404 and leaves the caches untouched. |
| WeatherRoutes.Trends | app/views/weather_routes.py:48-57 | The answer is 404 exactly when the forecast is None or a JSON null, and 200 with the forecast otherwise. |
| WeatherRoutes.NullForecastStaysNotFound | app/services/weather_service.py:137-143 | A forecast body that decodes to null gives 404, is cached, and every later request for it is served the same 404 from the cache. |
| WeatherRoutes.WhitelistMatchesLayers | app/views/weather_routes.py:74-76 | The proxy's whitelist is exactly the set of advertised op codes. |
| WeatherRoutes.MapTile | app/views/weather_routes.py:69-101 | A non-whitelisted op gives 400 and sends nothing. Otherwise it sends one request. A timeout gives 504, and another failure or a 4xx/5xx gives 502. A reply without Content-Type crashes. Any other reply becomes a 200 image with Cache-Control passed on exactly when present. |
| WeatherRoutes.ProxyFetchesTemplateUrl | app/views/weather_routes.py:78-83 | The proxied address is the advertised template filled with the tile coordinates in decimal. |
| WeatherRoutes.MapLayers | app/views/weather_routes.py:60-66 | Every advertised layer URL uses an op the proxy accepts. |

## Left out

- I/O is left out. This covers Excel and GeoJSON reading, HTTP, matplotlib drawing, PNG and base64 encoding, and logging. Each becomes a parameter: the workbook as a decoded `Frame` or None, the upstream functions, a `Fitter` for kriging and RBF, an `Encoder`, and a `Decoder` for `json.loads`.
- The kriging and RBF numerics are left out. The fitted surface is an opaque function.
- Cache expiry (TTL) and size-bound eviction are left out: entries never leave the maps. This is because time is not modelled.
- Unix timestamps are left out. This covers `timestamp()` in the local time zone and the OverflowError or OSError it can raise. The window is kept as wall-clock date and time.
- `CarbonEstimator.Round4Units`: rounding is on exact reals with ties to even. Python rounds the nearest binary double, so results near a tie can differ.
- `float()` of text is an abstract parser. OverflowError from converting a huge integer is not modelled.
- `HeatmapService.ResolveResolution`: any `grid_resolution` that is not a positive JSON integer fails. In the source, a float or negative value still reaches `mgrid` on the RBF path, where `complex(0, n)` takes its absolute value.
- `HeatmapService.ResolveLayerNames`: a list item that is not a string fails. The source would format it into a file name.
- `HeatmapService.ResolveOverlay`: a `point_size` that is not null, int or float fails, a bool included.
- `HeatmapService.Number`: matplotlib unit conversion for axis limits given as text is not modelled. Such limits fail.
- `HeatmapService.Limit`: an axis limit given as text fails here, and so does `HeatmapService.ExtentWindow` built from it. matplotlib would convert the text through its unit machinery.
- `HeatmapService.Limits`: only a list is unpacked when the second limit is null. matplotlib also unpacks a string or a dict there, into text limits or key limits. Here those fail like any other non-number.
- NaN and infinities are not modelled. Numbers are exact reals, so a float that Python parses as NaN or infinity cannot arise here. Examples are `float("nan")`, `float("inf")` and `"1e999"`, and the `NaN` and `Infinity` literals that Flask's JSON decoder accepts. In the source such values pass through the calculator and come back in a 200 answer as a NaN or infinite figure.
- Concurrency is not modelled. Requests run one at a time against the module-level caches and the uploaded-point store. Interleaved requests in a threaded server are not covered.
- Duplicate keys in a decoded JSON object are not modelled. `Json.Get` takes the first; Python's decoder keeps the last.
- Duplicate column names in the heatmap samples are modelled only by taking the first column of each name. pandas would select every column of that name.
- Non-ASCII digits accepted by `strptime` are not modelled.
- Malformed geocoder answers are not modelled. This covers a missing `lat` or `lon`, or a non-list reply.
- HTTP header names are matched exactly, not case-insensitively as `requests` does.
- A missing API key, which makes `requests` drop the `appid` parameter, is not modelled.
- Two branches are unreachable and are not modelled: the final `未知错误` answer of the upload route (app/views/map_routes.py:42) and the final 400 of the heatmap route (app/views/heatmap_routes.py:49). A file part is truthy exactly when its file name is non-empty, and that was already checked.
- `WeatherRoutes.Realtime` models the empty-city branch even though the route converter never matches an empty segment.
- Error messages that embed `str(e)` are abstracted to their kind.
- The Flask application factory, configuration loading and CORS set-up are not part of this model.

=== FILE: calculator_routes.dfy ===
/** `POST /api/estimate`: the JSON body's two sections through the carbon estimator. */
module CalculatorRoutes {
  import opened Wrappers
  import opened Json
  import opened CarbonEstimator

  /** What `request.get_json()` produced: the decoded body (JSON `null` included),
      or an exception (wrong content type, malformed JSON). */
  datatype Body = Parsed(value: Json) | Unreadable

  datatype Reply = Reply(status: int, success: bool, data: Option<Emissions>)

  /** `data.get(key, {})` on the request body. */
  function Section(body: seq<(string, Json)>, key: string): (s: Json)
    ensures !HasKey(body, key) ==> s == JObj([])
    ensures HasKey(body, key) ==> (key, s) in body
  {
    GetOrDefault(body, key, JObj([]))
  }

  function Estimate(body: Body, parse: TextParser): (r: Reply)
    ensures r.success <==> r.status == 200
    ensures r.data.Some? <==> r.success
    ensures r.status == 400 <==> body.Parsed? && !Truthy(body.value)
    ensures !r.success && r.status != 400 ==> r.status == 500
    ensures r.success <==>
      && body.Parsed? && body.value.JObj? && Truthy(body.value)
      && EstimateTotal(Section(body.value.fields, "fuel_data"), Section(body.value.fields, "electricity_data"), parse).Ok?
    ensures r.success ==>
      r.data.value == EstimateTotal(Section(body.value.fields, "fuel_data"), Section(body.value.fields, "electricity_data"), parse).value
  {
    match body
    case Unreadable => Reply(500, false, None)
    case Parsed(data) =>
      if !Truthy(data) then Reply(400, false, None)
      else if !data.JObj? then Reply(500, false, None)
      else
        match EstimateTotal(Section(data.fields, "fuel_data"), Section(data.fields, "electricity_data"), parse)
        case Raised => Reply(500, false, None)
        case Ok(results) => Reply(200, true, Some(results))
  }

  /** A body naming neither section is an estimate of nothing: all three figures are zero. */
  lemma NoSectionsIsZero(body: seq<(string, Json)>, parse: TextParser)
    requires |body| > 0 && !HasKey(body, "fuel_data") && !HasKey(body, "electricity_data")
    ensures Estimate(Parsed(JObj(body)), parse) == Reply(200, true, Some(Emissions(0.0, 0.0, 0.0)))
  {
    EmptyRequestIsZero(parse);
  }

  /** A section sent as JSON `null` (or any non-object) is an internal error, not a default. */
  lemma NonObjectSectionIsError(body: seq<(string, Json)>, key: string, parse: TextParser)
    requires |body| > 0 && (key == "fuel_data" || key == "electricity_data")
    requires Get(body, key).Some? && !Get(body, key).value.JObj?
    ensures Estimate(Parsed(JObj(body)), parse) == Reply(500, false, None)
  {
    var fuel := Section(body, "fuel_data");
    var elec := Section(body, "electricity_data");
    assert !fuel.JObj? || !elec.JObj?;
    assert EstimateTotal(fuel, elec, parse).Raised?;
  }
}

=== FILE: carbon_estimator.dfy ===
/** The carbon estimator: scope 1 (fuel burnt on site) and scope 2 (purchased
    electricity) emissions in tonnes of CO2, and their rounded report. */
module CarbonEstimator {
  import opened Wrappers
  import opened Json

  /** Scope 1 emission factors, tCO2 per unit of fuel (10^4 m^3 of gas, tonnes otherwise). */
  const FuelFactors: map<string, real> :=
    map["gas" := 21.62, "diesel" := 3.096, "gasoline" := 2.925, "coal" := 1.900]

  /** Regional grid emission factors, tCO2 per MWh. */
  const GridFactors: map<string, real> :=
    map["North" := 0.5921, "Northeast" := 0.5594, "East" := 0.5703, "Central" := 0.4233,
        "Northwest" := 0.4908, "South" := 0.3854, "National_Avg" := 0.5386]

  /** The fuel table holds exactly these four fuels. */
  lemma FuelTable()
    ensures FuelFactors.Keys == {"gas", "diesel", "gasoline", "coal"}
    ensures |FuelFactors| == 4
  {
    assert |{"gas", "diesel", "gasoline"}| == 3;
  }

  /** The grid table holds exactly these seven regions. */
  lemma GridTable()
    ensures GridFactors.Keys == {"North", "Northeast", "East", "Central", "Northwest", "South", "National_Avg"}
    ensures |GridFactors| == 7
  {
    assert |{"North", "Northeast", "East", "Central", "Northwest", "South"}| == 6 by {
      assert |{"North", "Northeast", "East"}| == 3;
      assert |{"North", "Northeast", "East", "Central"}| == 4;
      assert |{"North", "Northeast", "East", "Central", "Northwest"}| == 5;
    }
  }

  /** Every factor in either table is positive. */
  lemma FactorsPositive()
    ensures forall f :: f in FuelFactors ==> FuelFactors[f] > 0.0
    ensures forall g :: g in GridFactors ==> GridFactors[g] > 0.0
  {
  }

  /** How `float(text)` reads a string: the number it denotes, or None where it raises ValueError. */
  type TextParser = string -> Option<real>

  /** Python's `float(v)` on a decoded JSON value; None where it raises. */
  function ToFloat(v: Json, parse: TextParser): Option<real> {
    match v
    case JNull => None
    case JBool(b) => Some(if b then 1.0 else 0.0)
    case JInt(i) => Some(i as real)
    case JFloat(x) => Some(x)
    case JStr(s) => parse(s)
    case JArr(_) => None
    case JObj(_) => None
  }

  // ---------------------------------------------------------------- scope 1

  /** The quantity a `(fuel_type, consumption)` item contributes, or None when
      the loop skips it: unknown fuel, a null value, or a value `float` rejects. */
  function CountedAmount(item: (string, Json), parse: TextParser): Option<real> {
    if item.0 in FuelFactors && item.1 != JNull then ToFloat(item.1, parse) else None
  }

  function Contribution(item: (string, Json), parse: TextParser): real {
    match CountedAmount(item, parse)
    case Some(x) => x * FuelFactors[item.0]
    case None => 0.0
  }

  /** The loop skips every item of the section. */
  predicate NothingCounted(items: seq<(string, Json)>, parse: TextParser) {
    forall i :: 0 <= i < |items| ==> CountedAmount(items[i], parse).None?
  }

  /** The loop's accumulator after visiting `items` in order (a dict's items).
      A section in which the loop skips every item adds up to zero. */
  function Scope1(items: seq<(string, Json)>, parse: TextParser): (r: real)
    ensures NothingCounted(items, parse) ==> r == 0.0
  {
    if |items| == 0 then 0.0
    else Scope1(items[..|items| - 1], parse) + Contribution(items[|items| - 1], parse)
  }

  /** Total counted quantity of one fuel. */
  function Usage(items: seq<(string, Json)>, fuel: string, parse: TextParser): real {
    if |items| == 0 then 0.0
    else
      var last := items[|items| - 1];
      Usage(items[..|items| - 1], fuel, parse)
        + (if last.0 == fuel && CountedAmount(last, parse).Some? then CountedAmount(last, parse).value else 0.0)
  }

  /** The reference reading of scope 1: each fuel's total use times its factor. */
  function WeightedFuelUse(items: seq<(string, Json)>, parse: TextParser): real {
    FuelFactors["gas"] * Usage(items, "gas", parse)
      + FuelFactors["diesel"] * Usage(items, "diesel", parse)
      + FuelFactors["gasoline"] * Usage(items, "gasoline", parse)
      + FuelFactors["coal"] * Usage(items, "coal", parse)
  }

  /** Scope 1 is the factor-weighted sum of the counted fuel quantities. */
  lemma {:induction false} Scope1IsWeightedFuelUse(items: seq<(string, Json)>, parse: TextParser)
    ensures Scope1(items, parse) == WeightedFuelUse(items, parse)
  {
    if |items| > 0 {
      var front := items[..|items| - 1];
      Scope1IsWeightedFuelUse(front, parse);
    }
  }

  /** Scope 1 of a concatenation is the sum of the parts' scope 1. */
  lemma {:induction false} Scope1Append(a: seq<(string, Json)>, b: seq<(string, Json)>, parse: TextParser)
    ensures Scope1(a + b, parse) == Scope1(a, parse) + Scope1(b, parse)
  {
    if |b| > 0 {
      var n := |b| - 1;
      assert (a + b)[..|a + b| - 1] == a + b[..n];
      assert (a + b)[|a + b| - 1] == b[n];
      Scope1Append(a, b[..n], parse);
    } else {
      assert a + b == a;
    }
  }

  /** A skipped item (unknown fuel, null, unconvertible) changes nothing around it. */
  lemma SkippedItemAddsNothing(a: seq<(string, Json)>, item: (string, Json), b: seq<(string, Json)>, parse: TextParser)
    requires CountedAmount(item, parse).None?
    ensures Scope1(a + [item] + b, parse) == Scope1(a + b, parse)
  {
    Scope1Append(a + [item], b, parse);
    Scope1Append(a, [item], parse);
    Scope1Append(a, b, parse);
    assert Scope1([item], parse) == Scope1([], parse) + Contribution(item, parse) by {
      assert [item][..0] == [];
    }
  }

  /** The order of the items does not matter. */
  lemma ItemOrderIrrelevant(a: seq<(string, Json)>, b: seq<(string, Json)>, parse: TextParser)
    ensures Scope1(a + b, parse) == Scope1(b + a, parse)
  {
    Scope1Append(a, b, parse);
    Scope1Append(b, a, parse);
  }

  /** Non-negative quantities give a non-negative scope 1. */
  lemma {:induction false} Scope1NonNegative(items: seq<(string, Json)>, parse: TextParser)
    requires forall i :: 0 <= i < |items| && CountedAmount(items[i], parse).Some? ==> CountedAmount(items[i], parse).value >= 0.0
    ensures Scope1(items, parse) >= 0.0
  {
    if |items| > 0 {
      var n := |items| - 1;
      assert forall i :: 0 <= i < n ==> items[..n][i] == items[i];
      Scope1NonNegative(items[..n], parse);
      assert Contribution(items[n], parse) >= 0.0 by {
        FactorsPositive();
      }
      assert Scope1(items, parse) == Scope1(items[..n], parse) + Contribution(items[n], parse);
    }
  }

  // ---------------------------------------------------------------- scope 2

  /** The three ways scope 2 comes out as zero without raising. */
  predicate Scope2Skipped(elec: seq<(string, Json)>) {
    var c := Get(elec, "consumption_kwh");
    var g := Get(elec, "region");
    !TruthyOpt(c) || !TruthyOpt(g) || (!Unhashable(g.value) && !(g.value.JStr? && g.value.s in GridFactors))
  }

  /** `region in EF_GRID` is reached with a list or dict region: TypeError escapes. */
  predicate Scope2Raises(elec: seq<(string, Json)>) {
    var c := Get(elec, "consumption_kwh");
    var g := Get(elec, "region");
    TruthyOpt(c) && TruthyOpt(g) && Unhashable(g.value)
  }

  /** Consumption converts and the region is a grid key: the source multiplies. */
  predicate Billable(elec: seq<(string, Json)>, parse: TextParser) {
    var c := Get(elec, "consumption_kwh");
    var g := Get(elec, "region");
    !Scope2Skipped(elec) && !Scope2Raises(elec) && ToFloat(c.value, parse).Some?
  }

  function Scope2(elec: seq<(string, Json)>, parse: TextParser): (r: Result<real>)
    ensures r.Raised? <==> Scope2Raises(elec)
    ensures Billable(elec, parse) ==>
      r == Ok(ToFloat(Get(elec, "consumption_kwh").value, parse).value / 1000.0 * GridFactors[Get(elec, "region").value.s])
    ensures !Billable(elec, parse) && !Scope2Raises(elec) ==> r == Ok(0.0)
  {
    var c := Get(elec, "consumption_kwh");
    var g := Get(elec, "region");
    if !TruthyOpt(c) || !TruthyOpt(g) then Ok(0.0)
    else if Unhashable(g.value) then Raised
    else if !(g.value.JStr? && g.value.s in GridFactors) then Ok(0.0)
    else
      match ToFloat(c.value, parse)
      case None => Ok(0.0)
      case Some(kwh) =>
        assert Billable(elec, parse);
        var factor := GridFactors[g.value.s];
        assert kwh == ToFloat(Get(elec, "consumption_kwh").value, parse).value;
        assert factor == GridFactors[Get(elec, "region").value.s];
        Ok(kwh / 1000.0 * factor)
  }

  /** A meter reading of `kwh` in `region`, as the request body spells it. */
  function Meter(kwh: real, region: string): seq<(string, Json)> {
    [("consumption_kwh", JFloat(kwh)), ("region", JStr(region))]
  }

  /** For a grid region, scope 2 is the reading in MWh times the region's factor, zero included. */
  lemma Scope2OfMeter(kwh: real, region: string, parse: TextParser)
    requires region in GridFactors
    ensures Scope2(Meter(kwh, region), parse) == Ok(kwh / 1000.0 * GridFactors[region])
  {
    var m := Meter(kwh, region);
    assert Get(m, "consumption_kwh") == Some(JFloat(kwh));
    assert Get(m, "region") == Some(JStr(region)) by {
      assert m[1..][0] == ("region", JStr(region));
    }
    assert "" !in GridFactors;
  }

  /** For a fixed region, scope 2 scales linearly with consumption. */
  lemma Scope2Linear(a: real, kwh: real, region: string, parse: TextParser)
    requires region in GridFactors
    ensures Scope2(Meter(a * kwh, region), parse).value == a * Scope2(Meter(kwh, region), parse).value
  {
    Scope2OfMeter(a * kwh, region, parse);
    Scope2OfMeter(kwh, region, parse);
  }

  /** A region outside the seven grid keys gives zero whatever the consumption. */
  lemma Scope2UnknownRegion(elec: seq<(string, Json)>, region: string, parse: TextParser)
    requires Get(elec, "region") == Some(JStr(region)) && region !in GridFactors
    ensures Scope2(elec, parse) == Ok(0.0)
  {
  }

  /** A non-negative reading gives a non-negative scope 2. */
  lemma Scope2NonNegative(elec: seq<(string, Json)>, parse: TextParser)
    requires Scope2(elec, parse).Ok?
    requires Billable(elec, parse) ==> ToFloat(Get(elec, "consumption_kwh").value, parse).value >= 0.0
    ensures Scope2(elec, parse).value >= 0.0
  {
    FactorsPositive();
    if Billable(elec, parse) {
      var kwh := ToFloat(Get(elec, "consumption_kwh").value, parse).value;
      var f := GridFactors[Get(elec, "region").value.s];
      assert kwh / 1000.0 >= 0.0;
      assert f > 0.0;
    }
  }

  // ---------------------------------------------------------------- report

  /** `round(x, 4)` on an exact value, in units of 1/10000: the nearest
      integer to `x * 10000`, ties going to the even one. */
  function Round4Units(x: real): (n: int)
    ensures -0.5 <= n as real - x * 10000.0 <= 0.5
    ensures (n as real - x * 10000.0 == 0.5 || n as real - x * 10000.0 == -0.5) ==> n % 2 == 0
  {
    var scaled := x * 10000.0;
    var lo := scaled.Floor;
    var frac := scaled - lo as real;
    if frac < 0.5 then lo
    else if frac > 0.5 then lo + 1
    else if lo % 2 == 0 then lo
    else lo + 1
  }

  function Round4(x: real): real {
    Round4Units(x) as real / 10000.0
  }

  /** Rounding moves a value by at most half a unit of the fourth decimal. */
  lemma Round4Close(x: real)
    ensures -0.00005 <= Round4(x) - x <= 0.00005
  {
  }

  /** A value already on the four-decimal grid is left alone. */
  lemma Round4Fixes(n: int)
    ensures Round4(n as real / 10000.0) == n as real / 10000.0
  {
    var x := n as real / 10000.0;
    assert x * 10000.0 == n as real;
    assert (x * 10000.0).Floor == n;
  }

  /** Rounding keeps the sign of a non-negative value. */
  lemma Round4NonNegative(x: real)
    requires x >= 0.0
    ensures Round4(x) >= 0.0
  {
    assert Round4Units(x) as real >= -0.5;
  }

  /** The response body's three figures. */
  datatype Emissions = Emissions(total: real, scope1: real, scope2: real)

  /** The total rounds the unrounded sum; it is not the sum of the rounded parts. */
  function Summarize(scope1: real, scope2: real): Emissions {
    Emissions(Round4(scope1 + scope2), Round4(scope1), Round4(scope2))
  }

  /** The reported total is within one unit of the fourth decimal of the reported parts' sum. */
  lemma TotalNearSumOfParts(scope1: real, scope2: real)
    ensures var e := Summarize(scope1, scope2);
      -0.0001 <= e.total - (e.scope1 + e.scope2) <= 0.0001
  {
    var t := Round4Units(scope1 + scope2);
    var a := Round4Units(scope1);
    var b := Round4Units(scope2);
    var m := t - a - b;
    assert -1.5 <= m as real <= 1.5;
    assert -1 <= m <= 1;
    assert Round4(scope1 + scope2) - (Round4(scope1) + Round4(scope2)) == m as real / 10000.0;
  }

  /** ... and the two can differ: two half-units each round to 0, their sum to 0.0001. */
  lemma TotalIsNotSumOfRoundedParts()
    ensures Summarize(0.00005, 0.00005).total == 0.0001
    ensures Summarize(0.00005, 0.00005).scope1 + Summarize(0.00005, 0.00005).scope2 == 0.0
  {
    assert (0.0001 * 10000.0).Floor == 1;
    assert (0.00005 * 10000.0).Floor == 0;
  }

  /** `estimate_total_emissions(fuel_data, electricity_data)`: `.items()` and
      `.get` raise unless both arguments are dicts, and scope 2 may raise. */
  function EstimateTotal(fuel: Json, elec: Json, parse: TextParser): (r: Result<Emissions>)
    ensures r.Ok? <==> fuel.JObj? && elec.JObj? && !Scope2Raises(elec.fields)
    ensures r.Ok? ==> r.value.scope1 == Round4(WeightedFuelUse(fuel.fields, parse))
    ensures r.Ok? ==> r.value.scope2 == Round4(Scope2(elec.fields, parse).value)
    ensures r.Ok? ==> r.value.total == Round4(WeightedFuelUse(fuel.fields, parse) + Scope2(elec.fields, parse).value)
  {
    if !fuel.JObj? then Raised
    else
      var s1 := Scope1(fuel.fields, parse);
      if !elec.JObj? then Raised
      else
        var s2 :- Scope2(elec.fields, parse);
        Scope1IsWeightedFuelUse(fuel.fields, parse);
        Ok(Summarize(s1, s2))
  }

  /** Non-negative readings give a non-negative report. */
  lemma EstimateNonNegative(fuel: Json, elec: Json, parse: TextParser)
    requires EstimateTotal(fuel, elec, parse).Ok?
    requires forall i :: 0 <= i < |fuel.fields| && CountedAmount(fuel.fields[i], parse).Some? ==>
      CountedAmount(fuel.fields[i], parse).value >= 0.0
    requires Billable(elec.fields, parse) ==> ToFloat(Get(elec.fields, "consumption_kwh").value, parse).value >= 0.0
    ensures var e := EstimateTotal(fuel, elec, parse).value;
      e.total >= 0.0 && e.scope1 >= 0.0 && e.scope2 >= 0.0
  {
    var w := WeightedFuelUse(fuel.fields, parse);
    var s2 := Scope2(elec.fields, parse).value;
    PartsNonNegative(fuel.fields, elec.fields, parse);
    Round4NonNegative(w);
    Round4NonNegative(s2);
    Round4NonNegative(w + s2);
  }

  /** The two unrounded parts are non-negative when every counted quantity is. */
  lemma PartsNonNegative(fuel: seq<(string, Json)>, elec: seq<(string, Json)>, parse: TextParser)
    requires !Scope2Raises(elec)
    requires forall i :: 0 <= i < |fuel| && CountedAmount(fuel[i], parse).Some? ==> CountedAmount(fuel[i], parse).value >= 0.0
    requires Billable(elec, parse) ==> ToFloat(Get(elec, "consumption_kwh").value, parse).value >= 0.0
    ensures WeightedFuelUse(fuel, parse) >= 0.0 && Scope2(elec, parse).value >= 0.0
  {
    Scope1NonNegative(fuel, parse);
    Scope1IsWeightedFuelUse(fuel, parse);
    Scope2NonNegative(elec, parse);
  }


  /** An empty fuel dict and an empty electricity dict report zero everywhere. */
  lemma EmptyRequestIsZero(parse: TextParser)
    ensures EstimateTotal(JObj([]), JObj([]), parse) == Ok(Emissions(0.0, 0.0, 0.0))
  {
    Round4Fixes(0);
  }
}

=== FILE: heatmap_routes.dfy ===
/** `POST /api/heatmap/generate`: a workbook part and an optional JSON options
    field in, a base64 PNG out. */
module HeatmapRoutes {
  import opened Wrappers
  import opened Json
  import opened Tables
  import opened HeatmapService

  /** What `json.loads` makes of the options text: a value, a JSONDecodeError,
      or any other exception. */
  datatype Decoded = Decoded(value: Json) | DecodeError | DecoderCrashed

  type Decoder = string -> Decoded

  /** The PNG rendering of a figure, base64-encoded. */
  type Encoder = Figure -> string

  datatype Reply = Reply(status: int, success: bool, message: string, image: Option<string>)

  /** `request.form.get('options', '{}')`. */
  function OptionsText(form: map<string, string>): (t: string)
    ensures "options" in form ==> t == form["options"]
    ensures "options" !in form ==> t == "{}"
  {
    if "options" in form then form["options"] else "{}"
  }

  function Generate(files: map<string, FilePart>, form: map<string, string>, decode: Decoder, encode: Encoder,
                    env: Environment): (r: Reply)
    ensures r.success <==> r.status == 200
    ensures r.image.Some? <==> r.success
    ensures "excelFile" !in files ==> r == Reply(400, false, "请求中缺少 'excelFile' 文件部分", None)
    ensures "excelFile" in files && files["excelFile"].filename == "" ==> r == Reply(400, false, "未选择任何文件", None)
    ensures "excelFile" in files && files["excelFile"].filename != "" ==>
      match decode(OptionsText(form))
      case DecodeError => r == Reply(400, false, "选项(options)字段的JSON格式错误", None)
      case DecoderCrashed => r == Reply(500, false, "服务器内部错误", None)
      case Decoded(options) =>
        var fig := CreateHeatmapImage(files["excelFile"].workbook, options, env);
        && (r.success <==> fig.Some? && encode(fig.value) != "")
        && (r.success ==> r.image.value == encode(fig.value))
        && (!r.success ==> r.status == 500)
  {
    if "excelFile" !in files then Reply(400, false, "请求中缺少 'excelFile' 文件部分", None)
    else
      var file := files["excelFile"];
      if file.filename == "" then Reply(400, false, "未选择任何文件", None)
      else
        match decode(OptionsText(form))
        case DecodeError => Reply(400, false, "选项(options)字段的JSON格式错误", None)
        case DecoderCrashed => Reply(500, false, "服务器内部错误", None)
        case Decoded(options) =>
          match CreateHeatmapImage(file.workbook, options, env)
          case None => Reply(500, false, "后端生成热力图失败，请检查服务器日志", None)
          case Some(fig) =>
            var image := encode(fig);
            if image != "" then Reply(200, true, "热力图生成成功", Some(image))
            else Reply(500, false, "后端生成热力图失败，请检查服务器日志", None)
  }

  /** A request without an options field is the request with options `{}`, and
      an image it yields is drawn with every default option. */
  lemma AbsentOptionsAreDefaults(files: map<string, FilePart>, form: map<string, string>, decode: Decoder,
                                 encode: Encoder, env: Environment)
    requires "options" !in form
    requires decode("{}") == Decoded(JObj([]))
    ensures Generate(files, form, decode, encode, env) == Generate(files, form["options" := "{}"], decode, encode, env)
    ensures "excelFile" in files && Generate(files, form, decode, encode, env).success ==>
      var fig := CreateHeatmapImage(files["excelFile"].workbook, JObj([]), env).value;
      && Generate(files, form, decode, encode, env).image == Some(encode(fig))
      && fig.data.city == DefaultCity && fig.data.interpolation == Kriging
      && fig.style.colormap == Named(DefaultColormap) && fig.style.view == DefaultWindow
  {
    if "excelFile" in files {
      EmptyOptionsUseDefaults(files["excelFile"].workbook, env);
    }
  }

  /** A readable default-city workbook with all defaults available yields an image. */
  lemma DefaultRequestSucceeds(file: FilePart, decode: Decoder, encode: Encoder, env: Environment)
    requires file.filename != "" && file.workbook.Some?
    requires decode("{}") == Decoded(JObj([]))
    requires Samples(file.workbook.value).Ok?
    requires DefaultCity in env.cities && env.cities[DefaultCity].boundary.Some?
    requires |env.cities[DefaultCity].boundary.value.features| > 0
    requires !env.cities[DefaultCity].boundary.value.features[0].MultiPolygonGeom?
    requires DefaultColormap in env.registered
    requires env.fit(Kriging, Samples(file.workbook.value).value).Some?
    requires forall f :: encode(f) != ""
    ensures Generate(map["excelFile" := file], map[], decode, encode, env).status == 200
  {
    DefaultsRender(file.workbook.value, env);
  }
}

=== FILE: heatmap_service.dfy ===
/** The decisions `create_heatmap_image` makes around its library calls: which
    interpolator runs, on which lattice, which polygon clips the raster, how
    each auxiliary layer is styled and stacked, which display window is set,
    and the defaults of every option. Any exception yields None. */
module HeatmapService {
  import opened Wrappers
  import opened Json
  import opened Text
  import opened Tables

  const DefaultCity: string := "taiyuangeo"
  const DefaultResolution: int := 200
  const DefaultColormap: string := "jet"
  const DefaultPointSize: int := 20
  const Title: string := "污染物浓度空间插值热力图"
  const ColorbarLabel: string := "污染物浓度"

  /** The spreadsheet columns the service reads, untranslated. */
  const LongitudeColumn: string := "经度"
  const LatitudeColumn: string := "纬度"
  const ConcentrationColumn: string := "污染物浓度"

  // ------------------------------------------------------------ region assets

  type Point = (real, real)

  /** A polygon's exterior ring and its area as the geometry library reports it. */
  datatype Part = Part(exterior: seq<Point>, area: real)

  datatype Geometry = PolygonGeom(polygon: Part) | MultiPolygonGeom(parts: seq<Part>) | OtherGeom

  datatype Bounds = Bounds(xmin: real, ymin: real, xmax: real, ymax: real)

  /** `boundary.geojson`: its features' geometries and `total_bounds`. */
  datatype Boundary = Boundary(features: seq<Geometry>, bounds: Bounds)

  /** A city folder: the boundary file if present, and the layer names whose
      `<name>.geojson` exists, each mapped to whether `read_file` can read it. */
  datatype CityAssets = CityAssets(boundary: Option<Boundary>, layerFiles: map<string, bool>)

  // ------------------------------------------------------------ interpolation

  datatype Method = Kriging | Rbf

  /** The `if / elif / else` on `interpolation_method`: only the exact string
      "rbf" selects RBF; "kriging", an absent key and anything else krige. */
  function SelectMethod(requested: Json): (m: Method)
    ensures m == Rbf <==> requested == JStr("rbf")
  {
    if requested == JStr("kriging") then Kriging
    else if requested == JStr("rbf") then Rbf
    else Kriging
  }

  /** `np.linspace(lo, hi, n)` and one axis of `np.mgrid[lo:hi:n*1j]`, which
      coincide on exact values: `n` evenly spaced points from `lo` to `hi`. */
  function Axis(lo: real, hi: real, n: nat): (xs: seq<real>)
    requires n >= 1
    ensures |xs| == n && xs[0] == lo
    ensures n >= 2 ==> xs[n - 1] == hi
    ensures n >= 2 ==> forall i :: 0 <= i < n - 1 ==> xs[i + 1] - xs[i] == (hi - lo) / (n - 1) as real
  {
    if n == 1 then [lo]
    else
      var step := (hi - lo) / (n - 1) as real;
      var xs := seq(n, i requires 0 <= i < n => lo + i as real * step);
      assert xs[n - 1] == lo + (n - 1) as real * step;
      assert (n - 1) as real * step == hi - lo;
      assert forall i :: 0 <= i < n - 1 ==> xs[i + 1] - xs[i] == step by {
        forall i | 0 <= i < n - 1 ensures xs[i + 1] - xs[i] == step {
          assert (i + 1) as real * step == i as real * step + step;
        }
      }
      xs
  }

  /** The interpolator the library fits to the samples, as a surface over the plane. */
  type Surface = (real, real) -> real

  /** The grid every consumer expects: first index along x, second along y. */
  function SampledGrid(f: Surface, xs: seq<real>, ys: seq<real>): seq<seq<real>> {
    seq(|xs|, i requires 0 <= i < |xs| => seq(|ys|, j requires 0 <= j < |ys| => f(xs[i], ys[j])))
  }

  /** `OK.execute('grid', xs, ys)` answers rows by y; the service transposes it. */
  function KrigingGrid(f: Surface, xs: seq<real>, ys: seq<real>): seq<seq<real>> {
    var byRow := seq(|ys|, j requires 0 <= j < |ys| => seq(|xs|, i requires 0 <= i < |xs| => f(xs[i], ys[j])));
    seq(|xs|, i requires 0 <= i < |xs| => seq(|ys|, j requires 0 <= j < |ys| => byRow[j][i]))
  }

  /** `rbfi(grid_x, grid_y)` on the `mgrid` coordinate arrays, elementwise. */
  function RbfGrid(f: Surface, xs: seq<real>, ys: seq<real>): seq<seq<real>> {
    var gx := seq(|xs|, i requires 0 <= i < |xs| => seq(|ys|, j requires 0 <= j < |ys| => xs[i]));
    var gy := seq(|xs|, i requires 0 <= i < |xs| => seq(|ys|, j requires 0 <= j < |ys| => ys[j]));
    seq(|xs|, i requires 0 <= i < |xs| => seq(|ys|, j requires 0 <= j < |ys| => f(gx[i][j], gy[i][j])))
  }

  /** Both branches hand the same orientation to the renderer. */
  lemma GridsAgree(f: Surface, xs: seq<real>, ys: seq<real>)
    ensures KrigingGrid(f, xs, ys) == SampledGrid(f, xs, ys)
    ensures RbfGrid(f, xs, ys) == SampledGrid(f, xs, ys)
  {
    var g := SampledGrid(f, xs, ys);
    var k := KrigingGrid(f, xs, ys);
    var r := RbfGrid(f, xs, ys);
    forall i | 0 <= i < |xs| ensures k[i] == g[i] && r[i] == g[i] {
      assert forall j :: 0 <= j < |ys| ==> k[i][j] == g[i][j];
      assert forall j :: 0 <= j < |ys| ==> r[i][j] == g[i][j];
    }
  }

  // ------------------------------------------------------------ clipping

  /** `max(parts, key=area)`: the index of the first part of greatest area. */
  function LargestPart(parts: seq<Part>): (k: nat)
    requires |parts| > 0
    ensures k < |parts|
    ensures forall j :: 0 <= j < |parts| ==> parts[j].area <= parts[k].area
    ensures forall j :: 0 <= j < k ==> parts[j].area < parts[k].area
  {
    if |parts| == 1 then 0
    else
      var n := |parts| - 1;
      var k := LargestPart(parts[..n]);
      if parts[n].area > parts[k].area then n else k
  }

  /** The clip ring: a polygon's exterior, the exterior of a multipolygon's
      largest part, or no clip for other geometry; `max` of no parts raises. */
  function ClipRing(g: Geometry): (r: Result<Option<seq<Point>>>)
    ensures r.Raised? <==> g.MultiPolygonGeom? && |g.parts| == 0
    ensures g.PolygonGeom? ==> r == Ok(Some(g.polygon.exterior))
    ensures g.OtherGeom? ==> r == Ok(None)
    ensures g.MultiPolygonGeom? && r.Ok? ==>
      exists k :: 0 <= k < |g.parts| && r.value == Some(g.parts[k].exterior)
        && (forall j :: 0 <= j < |g.parts| ==> g.parts[j].area <= g.parts[k].area)
        && (forall j :: 0 <= j < k ==> g.parts[j].area < g.parts[k].area)
  {
    match g
    case PolygonGeom(p) => Ok(Some(p.exterior))
    case MultiPolygonGeom(parts) =>
      if |parts| == 0 then Raised else Ok(Some(parts[LargestPart(parts)].exterior))
    case OtherGeom => Ok(None)
  }

  // ------------------------------------------------------------ layers

  datatype LayerKind = RoadLayer | WaterLayer | RailLayer | PlainLayer

  /** `name` holds `word` somewhere. */
  ghost predicate Mentions(name: string, word: string) {
    exists i :: OccursAt(name, word, i)
  }

  /** The first matching test wins, case-sensitively: road/highway, then
      water/river, then rail, then anything else. */
  function LayerKindOf(name: string): (k: LayerKind)
    ensures k == RoadLayer <==> Mentions(name, "road") || Mentions(name, "highway")
    ensures k == WaterLayer <==>
      !Mentions(name, "road") && !Mentions(name, "highway") && (Mentions(name, "water") || Mentions(name, "river"))
    ensures k == RailLayer <==>
      !Mentions(name, "road") && !Mentions(name, "highway") && !Mentions(name, "water")
      && !Mentions(name, "river") && Mentions(name, "rail")
  {
    ContainsIffOccurs(name, "road");
    ContainsIffOccurs(name, "highway");
    ContainsIffOccurs(name, "water");
    ContainsIffOccurs(name, "river");
    ContainsIffOccurs(name, "rail");
    if Contains(name, "road") || Contains(name, "highway") then RoadLayer
    else if Contains(name, "water") || Contains(name, "river") then WaterLayer
    else if Contains(name, "rail") then RailLayer
    else PlainLayer
  }

  datatype LineStyle = Solid | Dashed | Dotted

  /** What a `plot(...)` call is given; `face` None leaves the library default fill. */
  datatype Stroke = Stroke(edge: string, face: Option<string>, width: real, alpha: Option<real>, line: LineStyle, z: int)

  /** The `plot` arguments each layer kind gets: only rails are dashed, only the
      plain kind is dotted, roads and water are translucent, and water alone is filled. */
  function StrokeOf(kind: LayerKind): (s: Stroke)
    ensures s.line == Dashed <==> kind == RailLayer
    ensures s.line == Dotted <==> kind == PlainLayer
    ensures s.alpha.Some? <==> kind == RoadLayer || kind == WaterLayer
    ensures s.face.Some? && s.face != Some("none") <==> kind == WaterLayer
    ensures s.z == (if kind == RoadLayer || kind == RailLayer then 3 else 2)
  {
    match kind
    case RoadLayer => Stroke("#4a4a4a", None, 0.4, Some(0.7), Solid, 3)
    case WaterLayer => Stroke("#3498db", Some("#3498db"), 0.8, Some(0.6), Solid, 2)
    case RailLayer => Stroke("#5e5e5e", None, 0.4, None, Dashed, 3)
    case PlainLayer => Stroke("white", Some("none"), 0.6, None, Dotted, 2)
  }

  /** `imshow`'s default stacking rank. */
  const RasterZ: int := 0
  const BoundaryStroke: Stroke := Stroke("black", Some("none"), 1.5, None, Solid, 5)
  const PointsZ: int := 10

  /** Stacking: raster below every layer, every layer below the outline, the outline below the points. */
  lemma StackingOrder(kind: LayerKind)
    ensures RasterZ < StrokeOf(kind).z < BoundaryStroke.z < PointsZ
    ensures StrokeOf(kind).z == (if kind == RoadLayer || kind == RailLayer then 3 else 2)
  {
  }

  /** "railroad" mentions "road", so it is drawn as a road, not a railway. */
  lemma RailroadIsRoad()
    ensures LayerKindOf("railroad") == RoadLayer
  {
    assert OccursAt("railroad", "road", 4);
  }

  /** A name lacking one of a word's characters does not mention the word. */
  lemma MissingCharNotMentioned(name: string, word: string, j: nat)
    requires j < |word|
    requires forall k :: 0 <= k < |name| ==> name[k] != word[j]
    ensures !Mentions(name, word)
  {
    forall i | 0 <= i ensures !OccursAt(name, word, i) {
      if i + |word| <= |name| {
        assert name[i..i + |word|][j] == name[i + j];
      }
    }
  }

  /** Water outranks rail when a name mentions both. */
  lemma WaterBeforeRail()
    ensures LayerKindOf("river_rail") == WaterLayer
  {
    var w := "river_rail";
    assert OccursAt(w, "river", 0);
    assert w == ['r', 'i', 'v', 'e', 'r', '_', 'r', 'a', 'i', 'l'];
    MissingCharNotMentioned(w, "road", 1);
    MissingCharNotMentioned(w, "highway", 0);
  }

  /** The tests are case-sensitive: "Road" gets the plain style. */
  lemma CapitalisedRoadIsPlain()
    ensures LayerKindOf("Road") == PlainLayer
  {
    var r := "Road";
    MissingCharNeverContains(r, "road", 0);
    ShortNeverContains(r, "highway");
    ShortNeverContains(r, "water");
    ShortNeverContains(r, "river");
    MissingCharNeverContains(r, "rail", 0);
    ContainsIffOccurs(r, "road");
    ContainsIffOccurs(r, "highway");
    ContainsIffOccurs(r, "water");
    ContainsIffOccurs(r, "river");
    ContainsIffOccurs(r, "rail");
  }

  datatype DrawnLayer = DrawnLayer(name: string, stroke: Stroke)

  /** The layer loop: names whose file is absent are skipped, the rest drawn in request order. */
  function DrawLayers(requested: seq<string>, files: set<string>): (drawn: seq<DrawnLayer>)
    ensures |drawn| <= |requested|
    ensures forall d :: d in drawn ==> d.name in requested && d.name in files
    ensures forall d :: d in drawn ==> d.stroke == StrokeOf(LayerKindOf(d.name))
  {
    if |requested| == 0 then []
    else
      var n := |requested| - 1;
      var front := DrawLayers(requested[..n], files);
      var name := requested[n];
      if name in files then front + [DrawnLayer(name, StrokeOf(LayerKindOf(name)))] else front
  }

  /** Every requested layer whose file exists can be read; one that cannot makes `read_file` raise. */
  predicate AllReadable(requested: seq<string>, files: map<string, bool>) {
    forall i :: 0 <= i < |requested| && requested[i] in files ==> files[requested[i]]
  }

  /** Drawing a concatenated request draws the two halves one after the other. */
  lemma {:induction false} DrawLayersAppend(a: seq<string>, b: seq<string>, files: set<string>)
    ensures DrawLayers(a + b, files) == DrawLayers(a, files) + DrawLayers(b, files)
  {
    if |b| == 0 {
      assert a + b == a;
    } else {
      var n := |b| - 1;
      assert (a + b)[..|a + b| - 1] == a + b[..n];
      assert (a + b)[|a + b| - 1] == b[n];
      DrawLayersAppend(a, b[..n], files);
    }
  }

  /** Every requested name with a file is drawn; missing files are the only reason to skip. */
  lemma {:induction false} AvailableLayersDrawn(requested: seq<string>, files: set<string>, name: string)
    requires name in requested && name in files
    ensures exists d :: d in DrawLayers(requested, files) && d.name == name
  {
    var n := |requested| - 1;
    if requested[n] == name {
      assert DrawLayers(requested, files)[|DrawLayers(requested, files)| - 1].name == name;
    } else {
      assert requested == requested[..n] + [requested[n]];
      assert name in requested[..n];
      AvailableLayersDrawn(requested[..n], files, name);
      var d :| d in DrawLayers(requested[..n], files) && d.name == name;
      assert d in DrawLayers(requested, files);
    }
  }

  // ------------------------------------------------------------ options

  /** A number given where matplotlib wants one (a bool is the integer 0 or 1);
      other values make it raise. */
  function Number(v: Json): (r: Result<real>)
    ensures r.Ok? <==> v.JInt? || v.JFloat? || v.JBool?
  {
    match v
    case JBool(b) => Ok(if b then 1.0 else 0.0)
    case JInt(i) => Ok(i as real)
    case JFloat(x) => Ok(x)
    case _ => Raised
  }

  /** `options.get('city', 'taiyuangeo')` joined into a path: only text works. */
  function ResolveCity(given: Option<Json>): (r: Result<string>)
    ensures r.Ok? <==> given.None? || given.value.JStr?
    ensures given.None? ==> r == Ok(DefaultCity)
    ensures given.Some? && given.value.JStr? ==> r == Ok(given.value.s)
  {
    match given.GetOr(JStr(DefaultCity))
    case JStr(s) => Ok(s)
    case _ => Raised
  }

  /** `options.get('grid_resolution', 200)`, accepted as a positive integer. */
  function ResolveResolution(given: Option<Json>): (r: Result<nat>)
    ensures r.Ok? <==> given.None? || (given.value.JInt? && given.value.i >= 1)
    ensures r.Ok? ==> r.value >= 1
    ensures given.None? ==> r == Ok(DefaultResolution)
    ensures r.Ok? && given.Some? ==> r.value == given.value.i
  {
    match given.GetOr(JInt(DefaultResolution))
    case JInt(n) => if n >= 1 then Ok(n) else Raised
    case _ => Raised
  }

  /** The colour map passed to `imshow`: a null value falls back to the library's configured default. */
  datatype Colormap = Named(name: string) | ConfiguredDefault

  /** `options.get('colormap', 'jet')`; a name the library does not register raises. */
  function ResolveColormap(given: Option<Json>, registered: set<string>): (r: Result<Colormap>)
    ensures r.Ok? <==>
      || (given.None? && DefaultColormap in registered)
      || given == Some(JNull)
      || (given.Some? && given.value.JStr? && given.value.s in registered)
    ensures given.None? && DefaultColormap in registered ==> r == Ok(Named(DefaultColormap))
    ensures given == Some(JNull) ==> r == Ok(ConfiguredDefault)
    ensures given.Some? && given.value.JStr? && given.value.s in registered ==> r == Ok(Named(given.value.s))
    ensures r.Ok? && r.value.Named? ==> r.value.name in registered
  {
    match given.GetOr(JStr(DefaultColormap))
    case JNull => Ok(ConfiguredDefault)
    case JStr(s) => if s in registered then Ok(Named(s)) else Raised
    case _ => Raised
  }

  /** The requested layer names: a list of names, the characters of a string
      or the keys of a dict (what a `for` loop visits); iterating anything else raises. */
  function ResolveLayerNames(given: Option<Json>): (r: Result<seq<string>>)
    ensures r.Ok? <==>
      || given.None? || given.value.JStr? || given.value.JObj?
      || (given.value.JArr? && forall i :: 0 <= i < |given.value.items| ==> given.value.items[i].JStr?)
    ensures given.None? ==> r == Ok([])
    ensures r.Ok? && given.Some? && given.value.JArr? ==>
      |r.value| == |given.value.items| && forall i :: 0 <= i < |r.value| ==> given.value.items[i] == JStr(r.value[i])
    ensures r.Ok? && given.Some? && given.value.JStr? ==>
      |r.value| == |given.value.s| && forall i :: 0 <= i < |r.value| ==> r.value[i] == [given.value.s[i]]
    ensures r.Ok? && given.Some? && given.value.JObj? ==>
      |r.value| == |given.value.fields| && forall i :: 0 <= i < |r.value| ==> r.value[i] == given.value.fields[i].0
  {
    match given.GetOr(JArr([]))
    case JArr(items) =>
      if forall i :: 0 <= i < |items| ==> items[i].JStr? then
        assert |items| == 0 ==> seq(|items|, i requires 0 <= i < |items| && items[i].JStr? => items[i].s) == [];
        Ok(seq(|items|, i requires 0 <= i < |items| && items[i].JStr? => items[i].s))
      else Raised
    case JStr(s) => Ok(seq(|s|, i requires 0 <= i < |s| => [s[i]]))
    case JObj(fields) => Ok(seq(|fields|, i requires 0 <= i < |fields| => fields[i].0))
    case _ => Raised
  }

  /** Marker area for the sample overlay; null leaves the library default. */
  datatype MarkerSize = Area(s: real) | ConfiguredSize

  /** The overlay is drawn iff `show_points` is truthy; `point_size` is only read then. */
  function ResolveOverlay(show: Option<Json>, size: Option<Json>): (r: Result<Option<MarkerSize>>)
    ensures r.Ok? <==> !TruthyOpt(show) || size.None? || size.value.JNull? || size.value.JInt? || size.value.JFloat?
    ensures !TruthyOpt(show) ==> r == Ok(None)
    ensures TruthyOpt(show) && size.None? ==> r == Ok(Some(Area(DefaultPointSize as real)))
    ensures TruthyOpt(show) && size == Some(JNull) ==> r == Ok(Some(ConfiguredSize))
    ensures TruthyOpt(show) && size.Some? && (size.value.JInt? || size.value.JFloat?) ==>
      r == Ok(Some(Area(Number(size.value).value)))
  {
    if !Truthy(show.GetOr(JBool(false))) then Ok(None)
    else
      match size.GetOr(JInt(DefaultPointSize))
      case JNull => Ok(Some(ConfiguredSize))
      case JInt(i) => Ok(Some(Area(i as real)))
      case JFloat(x) => Ok(Some(Area(x)))
      case _ => Raised
  }

  /** The axes limits: an explicit window, or none set (the axes fit the image).
      A limit of None keeps the one the image already set. */
  datatype View = Window(xmin: Option<real>, xmax: Option<real>, ymin: Option<real>, ymax: Option<real>) | FitImage

  const DefaultWindow: View := Window(Some(111.4), Some(113.3), Some(37.2), Some(38.5))

  const ExtentKeys: seq<string> := ["xmin", "xmax", "ymin", "ymax"]

  /** `all(k in extent for k in [...])` for each kind of truthy extent value. */
  predicate AllKeysIn(extent: Json) {
    match extent
    case JObj(f) => forall k :: k in ExtentKeys ==> Get(f, k).Some?
    case JStr(s) => forall k :: k in ExtentKeys ==> Contains(s, k)
    case JArr(items) => forall k :: k in ExtentKeys ==> JStr(k) in items
    case _ => false
  }

  /** One argument of `set_xlim` / `set_ylim`: a number sets that limit, `None`
      keeps the current one, anything else raises. */
  function Limit(v: Json): (r: Result<Option<real>>)
    ensures r.Ok? <==> v == JNull || Number(v).Ok?
    ensures r == Ok(None) <==> v == JNull
    ensures Number(v).Ok? ==> r == Ok(Some(Number(v).value))
  {
    if v == JNull then Ok(None)
    else
      var x :- Number(v);
      Ok(Some(x))
  }

  /** The two arguments of `set_xlim(lo, hi)` or `set_ylim(lo, hi)`. When `hi` is
      `None` and `lo` is a list, the list is unpacked as the pair of limits, and a
      list of any other length than two raises. Otherwise each argument is a `Limit`. */
  function Limits(lo: Json, hi: Json): (r: Result<(Option<real>, Option<real>)>)
    ensures hi == JNull && lo.JArr? ==>
      (r.Ok? <==> |lo.items| == 2 && Limit(lo.items[0]).Ok? && Limit(lo.items[1]).Ok?)
    ensures hi == JNull && lo.JArr? && r.Ok? ==> r.value == (Limit(lo.items[0]).value, Limit(lo.items[1]).value)
    ensures !(hi == JNull && lo.JArr?) ==> (r.Ok? <==> Limit(lo).Ok? && Limit(hi).Ok?)
    ensures !(hi == JNull && lo.JArr?) && r.Ok? ==> r.value == (Limit(lo).value, Limit(hi).value)
  {
    if hi == JNull && lo.JArr? then
      if |lo.items| != 2 then Raised
      else
        var a :- Limit(lo.items[0]);
        var b :- Limit(lo.items[1]);
        Ok((a, b))
    else
      var a :- Limit(lo);
      var b :- Limit(hi);
      Ok((a, b))
  }

  /** `set_xlim(xmin, xmax)` and `set_ylim(ymin, ymax)`, in that order. */
  function ExtentWindow(xmin: Json, xmax: Json, ymin: Json, ymax: Json): (r: Result<View>)
    ensures r.Ok? <==> Limits(xmin, xmax).Ok? && Limits(ymin, ymax).Ok?
    ensures r.Ok? ==>
      r.value == Window(Limits(xmin, xmax).value.0, Limits(xmin, xmax).value.1,
                        Limits(ymin, ymax).value.0, Limits(ymin, ymax).value.1)
  {
    var x :- Limits(xmin, xmax);
    var y :- Limits(ymin, ymax);
    Ok(Window(x.0, x.1, y.0, y.1))
  }

  /** The display-extent rule: an absent or falsy extent gives the fixed window;
      a truthy one sets limits only when it holds all four names, and subscripting
      anything but a dict, or testing `in` on anything but a dict, string or list, raises. */
  function ResolveView(e: Option<Json>): (r: Result<View>)
    ensures !TruthyOpt(e) ==> r == Ok(DefaultWindow)
    ensures TruthyOpt(e) && (e.value.JObj? || e.value.JStr? || e.value.JArr?) && !AllKeysIn(e.value) ==> r == Ok(FitImage)
    ensures TruthyOpt(e) && e.value.JObj? && AllKeysIn(e.value) ==>
      var f := e.value.fields;
      r == ExtentWindow(Get(f, "xmin").value, Get(f, "xmax").value, Get(f, "ymin").value, Get(f, "ymax").value)
    ensures TruthyOpt(e) && (e.value.JStr? || e.value.JArr?) && AllKeysIn(e.value) ==> r == Raised
    ensures TruthyOpt(e) && !(e.value.JObj? || e.value.JStr? || e.value.JArr?) ==> r == Raised
    ensures r.Ok? <==>
      || !TruthyOpt(e)
      || (e.value.JObj? && (!AllKeysIn(e.value) || ExtentWindow(Get(e.value.fields, "xmin").value, Get(e.value.fields, "xmax").value,
                                                               Get(e.value.fields, "ymin").value, Get(e.value.fields, "ymax").value).Ok?))
      || ((e.value.JStr? || e.value.JArr?) && !AllKeysIn(e.value))
  {
    if !TruthyOpt(e) then Ok(DefaultWindow)
    else
      match e.value
      case JObj(f) =>
        if AllKeysIn(e.value) then ExtentWindow(Get(f, "xmin").value, Get(f, "xmax").value, Get(f, "ymin").value, Get(f, "ymax").value)
        else Ok(FitImage)
      case JStr(_) => if AllKeysIn(e.value) then Raised else Ok(FitImage)
      case JArr(_) => if AllKeysIn(e.value) then Raised else Ok(FitImage)
      case _ => Raised
  }

  /** An absent or falsy extent sets the fixed default window. */
  lemma NoExtentUsesDefaultWindow(extent: Option<Json>)
    requires !TruthyOpt(extent)
    ensures ResolveView(extent) == Ok(DefaultWindow)
  {
  }

  /** A non-empty extent object lacking any of the four keys sets no limits at all. */
  lemma PartialExtentSetsNoLimits(f: seq<(string, Json)>, missing: string)
    requires |f| > 0
    requires missing in ExtentKeys && !HasKey(f, missing)
    ensures ResolveView(Some(JObj(f))) == Ok(FitImage)
  {
  }

  /** An extent object with all four numbers sets exactly those limits. */
  lemma FullExtentSetsLimits(f: seq<(string, Json)>, xmin: real, xmax: real, ymin: real, ymax: real)
    requires Get(f, "xmin") == Some(JFloat(xmin)) && Get(f, "xmax") == Some(JFloat(xmax))
    requires Get(f, "ymin") == Some(JFloat(ymin)) && Get(f, "ymax") == Some(JFloat(ymax))
    ensures ResolveView(Some(JObj(f))) == Ok(Window(Some(xmin), Some(xmax), Some(ymin), Some(ymax)))
  {
    AllFourKeys(f);
    ObjectExtent(f);
  }

  /** A null limit in a full extent object keeps that limit and sets the others. */
  lemma NullLimitKeepsCurrent(f: seq<(string, Json)>, xmax: real, ymin: real, ymax: real)
    requires Get(f, "xmin") == Some(JNull) && Get(f, "xmax") == Some(JFloat(xmax))
    requires Get(f, "ymin") == Some(JFloat(ymin)) && Get(f, "ymax") == Some(JFloat(ymax))
    ensures ResolveView(Some(JObj(f))) == Ok(Window(None, Some(xmax), Some(ymin), Some(ymax)))
  {
    AllFourKeys(f);
    ObjectExtent(f);
  }

  /** A two-number list under `xmin` with a null `xmax` sets both x limits. */
  lemma PairedLimitsSetBoth(f: seq<(string, Json)>, left: real, right: real, ymin: real, ymax: real)
    requires Get(f, "xmin") == Some(JArr([JFloat(left), JFloat(right)])) && Get(f, "xmax") == Some(JNull)
    requires Get(f, "ymin") == Some(JFloat(ymin)) && Get(f, "ymax") == Some(JFloat(ymax))
    ensures ResolveView(Some(JObj(f))) == Ok(Window(Some(left), Some(right), Some(ymin), Some(ymax)))
  {
    AllFourKeys(f);
    ObjectExtent(f);
  }

  /** A dict extent holding all four keys is read through `ExtentWindow`. */
  lemma ObjectExtent(f: seq<(string, Json)>)
    requires AllKeysIn(JObj(f))
    ensures ResolveView(Some(JObj(f)))
         == ExtentWindow(Get(f, "xmin").value, Get(f, "xmax").value, Get(f, "ymin").value, Get(f, "ymax").value)
  {
    assert "xmin" in ExtentKeys;
    assert |f| > 0;
  }

  lemma AllFourKeys(f: seq<(string, Json)>)
    requires Get(f, "xmin").Some? && Get(f, "xmax").Some? && Get(f, "ymin").Some? && Get(f, "ymax").Some?
    ensures AllKeysIn(JObj(f))
  {
    assert forall k :: k in ExtentKeys ==> k == "xmin" || k == "xmax" || k == "ymin" || k == "ymax";
  }

  // ------------------------------------------------------------ the pipeline

  /** One spreadsheet row: longitude, latitude and concentration cells. */
  datatype Sample = Sample(x: Json, y: Json, value: Json)

  /** `df[['经度', '纬度']].values` and `df['污染物浓度'].values`; KeyError when a column is missing. */
  function Samples(t: Frame): (r: Result<seq<Sample>>)
    ensures r.Ok? <==> LongitudeColumn in t.columns && LatitudeColumn in t.columns && ConcentrationColumn in t.columns
    ensures r.Ok? ==> |r.value| == |t.rows|
    ensures r.Ok? ==> forall i, k :: 0 <= i < |t.rows| && 0 <= k < |t.columns| && FirstOfName(t.columns, k) ==>
      && (t.columns[k] == LongitudeColumn ==> r.value[i].x == t.rows[i][k])
      && (t.columns[k] == LatitudeColumn ==> r.value[i].y == t.rows[i][k])
      && (t.columns[k] == ConcentrationColumn ==> r.value[i].value == t.rows[i][k])
  {
    var xs := Column(t, LongitudeColumn);
    var ys := Column(t, LatitudeColumn);
    var vs := Column(t, ConcentrationColumn);
    if xs.None? || ys.None? || vs.None? then Raised
    else Ok(seq(|t.rows|, r requires 0 <= r < |t.rows| => Sample(xs.value[r], ys.value[r], vs.value[r])))
  }

  /** The interpolation library fitted to the samples; None where it raises
      (too few or degenerate points, cells that are not numbers). */
  type Fitter = (Method, seq<Sample>) -> Option<Surface>

  /** What the service cannot see: the region asset store, the colour maps the
      plotting library registers, and the interpolation library. */
  datatype Environment = Environment(cities: map<string, CityAssets>, registered: set<string>, fit: Fitter)

  /** The interpolation half of the picture: the region, the method, the lattice and the grid. */
  datatype Interpolated = Interpolated(
    city: string,
    interpolation: Method,
    xs: seq<real>,
    ys: seq<real>,
    grid: seq<seq<real>>)

  /** The drawing half: colour map, clip ring, layers, sample overlay and axes limits. */
  datatype Styling = Styling(
    colormap: Colormap,
    clip: Option<seq<Point>>,
    layers: seq<DrawnLayer>,
    overlay: Option<MarkerSize>,
    view: View)

  /** Everything the service decides about the picture it encodes. */
  datatype Figure = Figure(data: Interpolated, style: Styling, title: string, colorbarLabel: string)

  /** The method `interpolation_method` asks for, "kriging" when the key is absent. */
  function RequestedMethod(o: seq<(string, Json)>): Method {
    SelectMethod(Get(o, "interpolation_method").GetOr(JStr("kriging")))
  }

  /** Steps 2 and 3 of the service: load the boundary, build the lattice, interpolate. */
  function Interpolate(samples: seq<Sample>, o: seq<(string, Json)>, env: Environment): (r: Result<Interpolated>)
    ensures r.Ok? <==>
      && ResolveCity(Get(o, "city")).Ok?
      && ResolveCity(Get(o, "city")).value in env.cities
      && env.cities[ResolveCity(Get(o, "city")).value].boundary.Some?
      && ResolveResolution(Get(o, "grid_resolution")).Ok?
      && env.fit(RequestedMethod(o), samples).Some?
    ensures r.Ok? ==> Ok(r.value.city) == ResolveCity(Get(o, "city"))
    ensures r.Ok? ==> Ok(|r.value.xs|) == ResolveResolution(Get(o, "grid_resolution"))
    ensures r.Ok? ==> r.value.interpolation == RequestedMethod(o)
    ensures r.Ok? ==> r.value.city in env.cities && env.cities[r.value.city].boundary.Some?
    ensures r.Ok? ==>
      var b := env.cities[r.value.city].boundary.value.bounds;
      && |r.value.xs| == |r.value.ys| >= 1
      && r.value.xs[0] == b.xmin && r.value.ys[0] == b.ymin
      && (|r.value.xs| >= 2 ==> r.value.xs[|r.value.xs| - 1] == b.xmax && r.value.ys[|r.value.ys| - 1] == b.ymax)
    ensures r.Ok? ==>
      var b := env.cities[r.value.city].boundary.value.bounds;
      r.value.xs == Axis(b.xmin, b.xmax, |r.value.xs|) && r.value.ys == Axis(b.ymin, b.ymax, |r.value.ys|)
    ensures r.Ok? ==> env.fit(r.value.interpolation, samples).Some?
    ensures r.Ok? ==> r.value.grid == SampledGrid(env.fit(r.value.interpolation, samples).value, r.value.xs, r.value.ys)
  {
    var city :- ResolveCity(Get(o, "city"));
    if city !in env.cities || env.cities[city].boundary.None? then Raised
    else
      var b := env.cities[city].boundary.value.bounds;
      var n :- ResolveResolution(Get(o, "grid_resolution"));
      var xs := Axis(b.xmin, b.xmax, n);
      var ys := Axis(b.ymin, b.ymax, n);
      var chosen := RequestedMethod(o);
      var surface := env.fit(chosen, samples);
      if surface.None? then Raised
      else
        GridsAgree(surface.value, xs, ys);
        var grid := if chosen == Kriging then KrigingGrid(surface.value, xs, ys) else RbfGrid(surface.value, xs, ys);
        Ok(Interpolated(city, chosen, xs, ys, grid))
  }

  /** Steps 4 to 6: colour map, clipping, layers, overlay and limits. */
  function Style(o: seq<(string, Json)>, registered: set<string>, boundary: Boundary, layerFiles: map<string, bool>): (r: Result<Styling>)
    ensures r.Ok? <==>
      && ResolveColormap(Get(o, "colormap"), registered).Ok?
      && |boundary.features| > 0 && ClipRing(boundary.features[0]).Ok?
      && ResolveLayerNames(Get(o, "map_layers")).Ok?
      && AllReadable(ResolveLayerNames(Get(o, "map_layers")).value, layerFiles)
      && ResolveOverlay(Get(o, "show_points"), Get(o, "point_size")).Ok?
      && ResolveView(Get(o, "extent")).Ok?
    ensures r.Ok? ==> Ok(r.value.colormap) == ResolveColormap(Get(o, "colormap"), registered)
    ensures r.Ok? ==> r.value.layers == DrawLayers(ResolveLayerNames(Get(o, "map_layers")).value, layerFiles.Keys)
    ensures r.Ok? ==> Ok(r.value.overlay) == ResolveOverlay(Get(o, "show_points"), Get(o, "point_size"))
    ensures r.Ok? ==> |boundary.features| > 0 && ClipRing(boundary.features[0]) == Ok(r.value.clip)
    ensures r.Ok? ==> forall d :: d in r.value.layers ==> d.name in layerFiles
    ensures r.Ok? ==> ResolveView(Get(o, "extent")) == Ok(r.value.view)
  {
    var colormap :- ResolveColormap(Get(o, "colormap"), registered);
    if |boundary.features| == 0 then Raised
    else
      var clip :- ClipRing(boundary.features[0]);
      var names :- ResolveLayerNames(Get(o, "map_layers"));
      if !AllReadable(names, layerFiles) then Raised
      else
        var layers := DrawLayers(names, layerFiles.Keys);
        var overlay :- ResolveOverlay(Get(o, "show_points"), Get(o, "point_size"));
        var view :- ResolveView(Get(o, "extent"));
        Ok(Styling(colormap, clip, layers, overlay, view))
  }

  /** The body of the `try` block; Raised is any exception it lets escape. */
  function Render(upload: Option<Frame>, options: Json, env: Environment): (r: Result<Figure>)
    ensures r.Ok? <==>
      && upload.Some? && options.JObj? && Samples(upload.value).Ok?
      && Interpolate(Samples(upload.value).value, options.fields, env).Ok?
      && var assets := env.cities[Interpolate(Samples(upload.value).value, options.fields, env).value.city];
         Style(options.fields, env.registered, assets.boundary.value, assets.layerFiles).Ok?
    ensures r.Ok? ==> r.value.data == Interpolate(Samples(upload.value).value, options.fields, env).value
    ensures r.Ok? ==>
      var assets := env.cities[r.value.data.city];
      r.value.style == Style(options.fields, env.registered, assets.boundary.value, assets.layerFiles).value
    ensures r.Ok? ==> r.value.title == Title && r.value.colorbarLabel == ColorbarLabel
  {
    if upload.None? then Raised
    else
      var samples :- Samples(upload.value);
      if !options.JObj? then Raised
      else
        var data :- Interpolate(samples, options.fields, env);
        var assets := env.cities[data.city];
        var style :- Style(options.fields, env.registered, assets.boundary.value, assets.layerFiles);
        Ok(Figure(data, style, Title, ColorbarLabel))
  }

  /** `create_heatmap_image`: the figure, or None when anything raised. */
  function CreateHeatmapImage(upload: Option<Frame>, options: Json, env: Environment): (fig: Option<Figure>)
    ensures fig.Some? <==>
      && upload.Some? && options.JObj? && Samples(upload.value).Ok?
      && Interpolate(Samples(upload.value).value, options.fields, env).Ok?
      && var assets := env.cities[Interpolate(Samples(upload.value).value, options.fields, env).value.city];
         Style(options.fields, env.registered, assets.boundary.value, assets.layerFiles).Ok?
    ensures fig.Some? ==>
      var o := options.fields;
      && Ok(fig.value.data.city) == ResolveCity(Get(o, "city"))
      && Ok(|fig.value.data.xs|) == ResolveResolution(Get(o, "grid_resolution"))
      && fig.value.data.interpolation == RequestedMethod(o)
      && Ok(fig.value.style.colormap) == ResolveColormap(Get(o, "colormap"), env.registered)
      && fig.value.style.layers == DrawLayers(ResolveLayerNames(Get(o, "map_layers")).value, env.cities[fig.value.data.city].layerFiles.Keys)
      && Ok(fig.value.style.overlay) == ResolveOverlay(Get(o, "show_points"), Get(o, "point_size"))
      && Ok(fig.value.style.view) == ResolveView(Get(o, "extent"))
      && fig.value.title == Title && fig.value.colorbarLabel == ColorbarLabel
    ensures fig.Some? ==>
      && upload.Some? && options.JObj? && Samples(upload.value).Ok?
      && fig.value.data == Interpolate(Samples(upload.value).value, options.fields, env).value
      && var b := env.cities[fig.value.data.city].boundary.value;
         |b.features| > 0 && ClipRing(b.features[0]) == Ok(fig.value.style.clip)
  {
    match Render(upload, options, env)
    case Ok(f) => Some(f)
    case Raised => None
  }

  /** Without a boundary file for the chosen city there is no image. */
  lemma MissingBoundaryFails(upload: Option<Frame>, options: seq<(string, Json)>, env: Environment, city: string)
    requires ResolveCity(Get(options, "city")) == Ok(city)
    requires city !in env.cities || env.cities[city].boundary.None?
    ensures CreateHeatmapImage(upload, JObj(options), env) == None
  {
  }

  /** A requested layer whose file exists but cannot be read gives no image. */
  lemma UnreadableLayerFails(upload: Option<Frame>, options: seq<(string, Json)>, env: Environment, city: string, name: string)
    requires ResolveCity(Get(options, "city")) == Ok(city)
    requires city in env.cities && name in env.cities[city].layerFiles && !env.cities[city].layerFiles[name]
    requires ResolveLayerNames(Get(options, "map_layers")).Ok? && name in ResolveLayerNames(Get(options, "map_layers")).value
    ensures CreateHeatmapImage(upload, JObj(options), env) == None
  {
  }

  /** Two option dicts that agree on every key the drawing half reads. */
  predicate SameStyleChoices(o: seq<(string, Json)>, o': seq<(string, Json)>) {
    && Get(o', "colormap") == Get(o, "colormap")
    && Get(o', "map_layers") == Get(o, "map_layers")
    && Get(o', "show_points") == Get(o, "show_points")
    && Get(o', "point_size") == Get(o, "point_size")
    && Get(o', "extent") == Get(o, "extent")
  }

  lemma StyleReadsOnlyItsKeys(o: seq<(string, Json)>, o': seq<(string, Json)>, registered: set<string>, boundary: Boundary, layerFiles: map<string, bool>)
    requires SameStyleChoices(o, o')
    ensures Style(o', registered, boundary, layerFiles) == Style(o, registered, boundary, layerFiles)
  {
  }

  /** Two option dicts that agree on every key the interpolation half reads,
      the method compared after its "kriging" default. */
  predicate SameInterpolationChoices(o: seq<(string, Json)>, o': seq<(string, Json)>) {
    && Get(o', "city") == Get(o, "city")
    && Get(o', "grid_resolution") == Get(o, "grid_resolution")
    && RequestedMethod(o') == RequestedMethod(o)
  }

  /** The interpolation half reads the city, the resolution and the method and nothing else. */
  lemma InterpolateReadsOnlyItsKeys(samples: seq<Sample>, o: seq<(string, Json)>, o': seq<(string, Json)>, env: Environment)
    requires SameInterpolationChoices(o, o')
    ensures Interpolate(samples, o', env) == Interpolate(samples, o, env)
  {
  }

  /** The figure depends on the options only through the choices the two halves read. */
  lemma RenderReadsOnlyChoices(upload: Option<Frame>, o: seq<(string, Json)>, o': seq<(string, Json)>, env: Environment)
    requires SameInterpolationChoices(o, o') && SameStyleChoices(o, o')
    ensures Render(upload, JObj(o'), env) == Render(upload, JObj(o), env)
  {
    if upload.Some? && Samples(upload.value).Ok? {
      var samples := Samples(upload.value).value;
      InterpolateReadsOnlyItsKeys(samples, o, o', env);
      if Interpolate(samples, o, env).Ok? {
        var assets := env.cities[Interpolate(samples, o, env).value.city];
        StyleReadsOnlyItsKeys(o, o', env.registered, assets.boundary.value, assets.layerFiles);
      }
    }
  }

  /** Setting the method leaves every key the drawing half reads as it was. */
  lemma PutMethodKeepsStyle(options: seq<(string, Json)>, chosen: Json)
    ensures SameStyleChoices(options, Put(options, "interpolation_method", chosen))
  {
  }

  /** Setting the method to "kriging" changes no interpolation choice unless "rbf" was asked for. */
  lemma PutKrigingKeepsInterpolation(options: seq<(string, Json)>)
    requires Get(options, "interpolation_method") != Some(JStr("rbf"))
    ensures SameInterpolationChoices(options, Put(options, "interpolation_method", JStr("kriging")))
  {
  }

  /** Options that do not ask for "rbf" render exactly as an explicit "kriging" does. */
  lemma UnknownMethodIsKriging(upload: Option<Frame>, options: seq<(string, Json)>, env: Environment)
    requires Get(options, "interpolation_method") != Some(JStr("rbf"))
    ensures CreateHeatmapImage(upload, JObj(options), env)
         == CreateHeatmapImage(upload, JObj(Put(options, "interpolation_method", JStr("kriging"))), env)
  {
    var o' := Put(options, "interpolation_method", JStr("kriging"));
    PutMethodKeepsStyle(options, JStr("kriging"));
    PutKrigingKeepsInterpolation(options);
    RenderReadsOnlyChoices(upload, options, o', env);
  }

  /** Empty options give the documented defaults. */
  lemma EmptyOptionsUseDefaults(upload: Option<Frame>, env: Environment)
    ensures var fig := CreateHeatmapImage(upload, JObj([]), env);
      fig.Some? ==>
        && fig.value.data.city == DefaultCity
        && fig.value.data.interpolation == Kriging
        && |fig.value.data.xs| == DefaultResolution && |fig.value.data.ys| == DefaultResolution
        && fig.value.style.colormap == Named(DefaultColormap)
        && fig.value.style.layers == []
        && fig.value.style.overlay == None
        && fig.value.style.view == DefaultWindow
  {
  }

  /** ... and with the default city's assets in place and a fitting interpolator, they do render. */
  lemma DefaultsRender(upload: Frame, env: Environment)
    requires Samples(upload).Ok?
    requires DefaultCity in env.cities && env.cities[DefaultCity].boundary.Some?
    requires |env.cities[DefaultCity].boundary.value.features| > 0
    requires !env.cities[DefaultCity].boundary.value.features[0].MultiPolygonGeom?
    requires DefaultColormap in env.registered
    requires env.fit(Kriging, Samples(upload).value).Some?
    ensures CreateHeatmapImage(Some(upload), JObj([]), env).Some?
  {
  }
}

=== FILE: json.dfy ===
/** Decoded JSON values as Python sees them after `json.loads` / `get_json`,
    with Python's truthiness and `dict.get`. */
module Json {
  import opened Wrappers

  /** Python's json module keeps integers and floats apart, so the model does too.
      An object is its (key, value) items in insertion order; decoded objects
      have distinct keys. */
  datatype Json =
    | JNull
    | JBool(b: bool)
    | JInt(i: int)
    | JFloat(x: real)
    | JStr(s: string)
    | JArr(items: seq<Json>)
    | JObj(fields: seq<(string, Json)>)

  /** Python's `bool(v)`: None, False, 0, 0.0, "" and empty containers are falsy. */
  predicate Truthy(v: Json) {
    match v
    case JNull => false
    case JBool(b) => b
    case JInt(i) => i != 0
    case JFloat(x) => x != 0.0
    case JStr(s) => s != ""
    case JArr(items) => |items| > 0
    case JObj(fields) => |fields| > 0
  }

  /** `bool(d.get(k))` where a missing key yields None. */
  predicate TruthyOpt(v: Option<Json>) {
    v.Some? && Truthy(v.value)
  }

  /** `v is None` for what a function returned: nothing at all, or a decoded JSON `null`. */
  predicate IsNone(v: Option<Json>) {
    v.None? || v == Some(JNull)
  }

  /** Lists and dicts are unhashable: `v in some_dict` raises TypeError for them. */
  predicate Unhashable(v: Json) {
    v.JArr? || v.JObj?
  }

  /** `k in d` for a dict's items. */
  predicate HasKey(fields: seq<(string, Json)>, k: string) {
    exists i :: 0 <= i < |fields| && fields[i].0 == k
  }

  /** `d.get(k)`: the value stored under `k`, or None. */
  function Get(fields: seq<(string, Json)>, k: string): (r: Option<Json>)
    ensures r.Some? <==> HasKey(fields, k)
    ensures r.Some? ==> (k, r.value) in fields
  {
    if |fields| == 0 then None
    else if fields[0].0 == k then Some(fields[0].1)
    else
      var rest := Get(fields[1..], k);
      assert HasKey(fields, k) ==> fields[0].0 == k || HasKey(fields[1..], k) by {
        if HasKey(fields, k) {
          var i :| 0 <= i < |fields| && fields[i].0 == k;
          if i > 0 { assert fields[1..][i - 1].0 == k; }
        }
      }
      assert HasKey(fields[1..], k) ==> HasKey(fields, k) by {
        if HasKey(fields[1..], k) {
          var i :| 0 <= i < |fields[1..]| && fields[1..][i].0 == k;
          assert fields[i + 1].0 == k;
        }
      }
      rest
  }

  /** `d.get(k, default)`. */
  function GetOrDefault(fields: seq<(string, Json)>, k: string, default: Json): (r: Json)
    ensures !HasKey(fields, k) ==> r == default
    ensures HasKey(fields, k) ==> (k, r) in fields
  {
    Get(fields, k).GetOr(default)
  }

  /** `d[k] = v`: overwrite the first item with key `k`, or append a new one. */
  function Put(fields: seq<(string, Json)>, k: string, v: Json): (r: seq<(string, Json)>)
    ensures Get(r, k) == Some(v)
    ensures forall k' :: k' != k ==> Get(r, k') == Get(fields, k')
  {
    if |fields| == 0 then [(k, v)]
    else if fields[0].0 == k then [(k, v)] + fields[1..]
    else [fields[0]] + Put(fields[1..], k, v)
  }
}

=== FILE: map_routes.dfy ===
/** The map blueprint's one-slot store: `/map/upload` validates a workbook
    and replaces the stored records, `/map/get-data` lists them with ids. */
module MapRoutes {
  import opened Wrappers
  import opened Json
  import opened Tables

  /** The module-level `PROCESSED_DATA`: None until the first accepted upload. */
  type Store = Option<seq<Record>>

  datatype Message =
    | NoFilePart
    | NoFileSelected
    | MissingColumns(columns: seq<string>)
    | Uploaded(filename: string)
    | ParseFailed

  datatype Reply = Reply(status: int, success: bool, message: Message)

  /** The column names after `df.rename(columns={...})`. */
  function Rename(column: string): (r: string)
  {
    if column == "经度" then "lng"
    else if column == "纬度" then "lat"
    else if column == "污染物浓度" then "concentration"
    else if column == "标记名称" then "name"
    else column
  }

  /** The spreadsheet header each required column may come from. */
  function SourceName(required: string): string {
    if required == "lng" then "经度"
    else if required == "lat" then "纬度"
    else if required == "concentration" then "污染物浓度"
    else "标记名称"
  }

  const RequiredColumns: seq<string> := ["lng", "lat", "concentration", "name"]

  /** Renaming sends exactly the column itself (if not translated) or its source name to a required name. */
  lemma RenameTargets(column: string, required: string)
    requires required in RequiredColumns
    ensures Rename(column) == required <==> column == required || column == SourceName(required)
  {
  }

  /** The four Chinese headers the upload translates. */
  const SourceHeaders: set<string> := {"经度", "纬度", "污染物浓度", "标记名称"}

  /** Columns other than the four translated ones keep their names. */
  lemma RenameLeavesOthers(column: string)
    requires column !in SourceHeaders
    ensures Rename(column) == column
  {
  }

  /** The whole header renamed, column by column and in order: a translated
      header becomes the required name it stands for, any other column is left alone. */
  function RenameAll(columns: seq<string>): (r: seq<string>)
    ensures |r| == |columns|
    ensures forall i :: 0 <= i < |columns| && columns[i] !in SourceHeaders ==> r[i] == columns[i]
    ensures forall i :: 0 <= i < |columns| && columns[i] in SourceHeaders ==>
      r[i] in RequiredColumns && SourceName(r[i]) == columns[i]
  {
    seq(|columns|, i requires 0 <= i < |columns| => Rename(columns[i]))
  }

  /** A required column is present after renaming iff it or its source name was in the header. */
  lemma PresentAfterRename(columns: seq<string>, required: string)
    requires required in RequiredColumns
    ensures required in RenameAll(columns) <==> required in columns || SourceName(required) in columns
  {
    var r := RenameAll(columns);
    if required in r {
      var i :| 0 <= i < |r| && r[i] == required;
      RenameTargets(columns[i], required);
    }
    if required in columns || SourceName(required) in columns {
      var i :| 0 <= i < |columns| && (columns[i] == required || columns[i] == SourceName(required));
      RenameTargets(columns[i], required);
      assert r[i] == required;
    }
  }

  /** The required columns absent from the header, in the order they are required. */
  function Missing(required: seq<string>, columns: seq<string>): (m: seq<string>)
    ensures forall c :: c in m <==> c in required && c !in columns
    ensures |m| <= |required|
  {
    if |required| == 0 then []
    else
      var rest := Missing(required[1..], columns);
      assert forall c :: c in required <==> c == required[0] || c in required[1..];
      if required[0] in columns then rest else [required[0]] + rest
  }

  /** The missing list keeps the order of `required`: it is a subsequence of it. */
  predicate SubsequenceOf(m: seq<string>, s: seq<string>)
    decreases |s|
  {
    |m| == 0 || (|s| > 0 && (if m[0] == s[0] then SubsequenceOf(m[1..], s[1..]) else SubsequenceOf(m, s[1..])))
  }

  lemma {:induction false} MissingInOrder(required: seq<string>, columns: seq<string>)
    ensures SubsequenceOf(Missing(required, columns), required)
  {
    if |required| > 0 {
      MissingInOrder(required[1..], columns);
      var rest := Missing(required[1..], columns);
      if required[0] !in columns {
        assert ([required[0]] + rest)[1..] == rest;
      }
    }
  }

  /** `POST /map/upload`: the reply, and the store afterwards. */
  function Upload(store: Store, files: map<string, FilePart>): (out: (Reply, Store))
    ensures out.0.success <==> out.0.status == 200
    ensures !out.0.success ==> out.1 == store
    ensures "file" !in files ==> out.0 == Reply(400, false, NoFilePart)
    ensures "file" in files && files["file"].filename == "" ==> out.0 == Reply(400, false, NoFileSelected)
    ensures "file" in files && files["file"].filename != "" && files["file"].workbook.None? ==>
      out.0 == Reply(500, false, ParseFailed)
    ensures out.0.success ==> "file" in files && files["file"].workbook.Some?
    ensures out.0.success ==>
      var t := files["file"].workbook.value;
      out.1 == Some(Records(Table(RenameAll(t.columns), t.rows)))
  {
    if "file" !in files then (Reply(400, false, NoFilePart), store)
    else
      var file := files["file"];
      if file.filename == "" then (Reply(400, false, NoFileSelected), store)
      else
        match file.workbook
        case None => (Reply(500, false, ParseFailed), store)
        case Some(t) =>
          var renamed := Table(RenameAll(t.columns), t.rows);
          var missing := Missing(RequiredColumns, renamed.columns);
          if |missing| > 0 then (Reply(400, false, MissingColumns(missing)), store)
          else (Reply(200, true, Uploaded(file.filename)), Some(Records(renamed)))
  }

  /** An upload is accepted iff every required column is present after renaming. */
  lemma AcceptedIffColumnsPresent(store: Store, name: string, t: Frame)
    requires name != ""
    ensures Upload(store, map["file" := FilePart(name, Some(t))]).0.success
        <==> forall c :: c in RequiredColumns ==> c in t.columns || SourceName(c) in t.columns
  {
    forall c | c in RequiredColumns {
      PresentAfterRename(t.columns, c);
    }
    var m := Missing(RequiredColumns, RenameAll(t.columns));
    if |m| > 0 {
      assert m[0] in m;
    }
  }

  /** A rejected workbook is answered with exactly its missing columns, in the fixed order. */
  lemma RejectionListsMissing(store: Store, name: string, t: Frame)
    requires name != ""
    requires !Upload(store, map["file" := FilePart(name, Some(t))]).0.success
    ensures var reply := Upload(store, map["file" := FilePart(name, Some(t))]).0;
      && reply.status == 400
      && reply.message.MissingColumns?
      && (forall c :: c in reply.message.columns <==> c in RequiredColumns && !(c in t.columns || SourceName(c) in t.columns))
      && SubsequenceOf(reply.message.columns, RequiredColumns)
  {
    forall c | c in RequiredColumns {
      PresentAfterRename(t.columns, c);
    }
    MissingInOrder(RequiredColumns, RenameAll(t.columns));
  }

  /** The latest accepted upload wins: what was stored before does not matter. */
  lemma LatestUploadWins(s1: Store, s2: Store, files: map<string, FilePart>)
    requires Upload(s1, files).0.success
    ensures Upload(s2, files).0.success && Upload(s2, files).1 == Upload(s1, files).1
  {
  }

  /** `GET /map/get-data`: the stored records in order, each given `id` = its index. */
  function GetData(store: Store): (points: seq<Record>)
    ensures store.None? ==> points == []
    ensures store.Some? ==> |points| == |store.value|
    ensures store.Some? ==> forall i :: 0 <= i < |points| ==> "id" in points[i] && points[i]["id"] == JInt(i)
    ensures store.Some? ==> forall i :: 0 <= i < |points| ==> points[i].Keys == store.value[i].Keys + {"id"}
    ensures store.Some? ==> forall i, k :: 0 <= i < |points| && k in store.value[i] && k != "id" ==>
      points[i][k] == store.value[i][k]
  {
    match store
    case None => []
    case Some(records) => seq(|records|, i requires 0 <= i < |records| => records[i]["id" := JInt(i)])
  }

  /** Removing the added ids gives back the stored records, save a stored `id` column, which is overridden. */
  lemma GetDataRoundTrip(records: seq<Record>)
    ensures var points := GetData(Some(records));
      forall i :: 0 <= i < |records| ==> points[i] - {"id"} == records[i] - {"id"}
  {
  }
}

=== FILE: tables.dfy ===
/** A spreadsheet as the handlers receive it from the workbook reader: a header
    of column names and rows of cells, plus pandas' `to_dict('records')`. */
module Tables {
  import opened Wrappers
  import opened Json

  datatype Table = Table(columns: seq<string>, rows: seq<seq<Json>>) {
    /** A data frame always has one cell per column in every row. */
    predicate Rectangular() {
      forall r :: 0 <= r < |rows| ==> |rows[r]| == |columns|
    }
  }

  /** A data frame as the workbook reader returns it. */
  type Frame = t: Table | t.Rectangular() witness Table([], [])

  /** One row as a dict from column name to cell. */
  type Record = map<string, Json>

  /** A file part of a multipart request: its filename and what the workbook
      reader makes of its bytes (None where reading raises). */
  datatype FilePart = FilePart(filename: string, workbook: Option<Frame>)

  /** Column `i` is the last column carrying its name. */
  predicate LastOfName(columns: seq<string>, i: int)
    requires 0 <= i < |columns|
  {
    forall j :: i < j < |columns| ==> columns[j] != columns[i]
  }

  /** `dict(zip(columns, row))`: every column becomes a key; when a name
      repeats, the right-most column's cell is kept (see RowRecordValue). */
  function RowRecord(columns: seq<string>, row: seq<Json>): (r: Record)
    requires |row| == |columns|
    ensures r.Keys == set c | c in columns
  {
    if |columns| == 0 then map[]
    else
      var n := |columns| - 1;
      var front := RowRecord(columns[..n], row[..n]);
      assert columns == columns[..n] + [columns[n]];
      front[columns[n] := row[n]]
  }

  /** The record holds, under each column's name, the cell of the last column with that name. */
  lemma {:induction false} RowRecordValue(columns: seq<string>, row: seq<Json>, i: int)
    requires |row| == |columns|
    requires 0 <= i < |columns| && LastOfName(columns, i)
    ensures RowRecord(columns, row)[columns[i]] == row[i]
  {
    var n := |columns| - 1;
    if i < n {
      assert LastOfName(columns[..n], i);
      RowRecordValue(columns[..n], row[..n], i);
    }
  }

  /** Column `k` is the first column carrying its name. */
  predicate FirstOfName(columns: seq<string>, k: int)
    requires 0 <= k < |columns|
  {
    forall j :: 0 <= j < k ==> columns[j] != columns[k]
  }

  /** `df.to_dict('records')`: one record per row, in row order. */
  function Records(t: Frame): (rs: seq<Record>)
    ensures |rs| == |t.rows|
    ensures forall r :: 0 <= r < |rs| ==> rs[r].Keys == set c | c in t.columns
    ensures forall r, i :: 0 <= r < |rs| && 0 <= i < |t.columns| && LastOfName(t.columns, i) ==>
      rs[r][t.columns[i]] == t.rows[r][i]
  {
    var rs := seq(|t.rows|, r requires 0 <= r < |t.rows| => RowRecord(t.columns, t.rows[r]));
    forall r, i | 0 <= r < |rs| && 0 <= i < |t.columns| && LastOfName(t.columns, i)
      ensures rs[r][t.columns[i]] == t.rows[r][i]
    {
      RowRecordValue(t.columns, t.rows[r], i);
    }
    rs
  }

  /** Position of the first column called `name`, if any. */
  function ColumnIndex(columns: seq<string>, name: string): (k: Option<nat>)
    ensures k.None? <==> name !in columns
    ensures k.Some? ==> k.value < |columns| && columns[k.value] == name
    ensures k.Some? ==> forall j :: 0 <= j < k.value ==> columns[j] != name
  {
    if |columns| == 0 then None
    else if columns[0] == name then Some(0)
    else
      match ColumnIndex(columns[1..], name)
      case None => None
      case Some(k) => Some(k + 1)
  }

  /** `df[name].values`: the cells of that column, or None where pandas raises KeyError. */
  function Column(t: Frame, name: string): (cells: Option<seq<Json>>)
    ensures cells.None? <==> name !in t.columns
    ensures cells.Some? ==> |cells.value| == |t.rows|
    ensures cells.Some? ==> forall r, k :: 0 <= r < |t.rows| && 0 <= k < |t.columns| && t.columns[k] == name && FirstOfName(t.columns, k) ==>
      cells.value[r] == t.rows[r][k]
  {
    match ColumnIndex(t.columns, name)
    case None => None
    case Some(k) => Some(seq(|t.rows|, r requires 0 <= r < |t.rows| => t.rows[r][k]))
  }
}

=== FILE: text.dfy ===
/** Python string operations the handlers rely on: prefix test, the
    substring test `sub in s`, and `str(n)` for a non-negative integer. */
module Text {

  predicate StartsWith(s: string, prefix: string) {
    |prefix| <= |s| && s[..|prefix|] == prefix
  }

  /** Python's `sub in s`, case-sensitive, scanning start positions left to right. */
  predicate Contains(s: string, sub: string)
    decreases |s|
  {
    StartsWith(s, sub) || (|s| > 0 && Contains(s[1..], sub))
  }

  /** `sub` occurs in `s` at position `i`. */
  predicate OccursAt(s: string, sub: string, i: int) {
    0 <= i && i + |sub| <= |s| && s[i..i + |sub|] == sub
  }

  /** The scanning definition agrees with "some position holds `sub`". */
  lemma {:induction false} ContainsIffOccurs(s: string, sub: string)
    ensures Contains(s, sub) <==> exists i :: OccursAt(s, sub, i)
    decreases |s|
  {
    if StartsWith(s, sub) {
      assert OccursAt(s, sub, 0);
    } else if |s| == 0 {
    } else {
      ContainsIffOccurs(s[1..], sub);
      if exists i :: OccursAt(s[1..], sub, i) {
        var i :| OccursAt(s[1..], sub, i);
        assert s[i + 1..i + 1 + |sub|] == s[1..][i..i + |sub|];
        assert OccursAt(s, sub, i + 1);
      }
      if exists i :: OccursAt(s, sub, i) {
        var i :| OccursAt(s, sub, i);
        assert i != 0;
        assert s[1..][i - 1..i - 1 + |sub|] == s[i..i + |sub|];
        assert OccursAt(s[1..], sub, i - 1);
      }
    }
  }

  /** A string that contains `sub` at a known position contains it. */
  lemma ContainsWhenOccurs(s: string, sub: string, i: int)
    requires OccursAt(s, sub, i)
    ensures Contains(s, sub)
  {
    ContainsIffOccurs(s, sub);
  }

  /** A string shorter than `sub` cannot contain it. */
  lemma ShortNeverContains(s: string, sub: string)
    requires |s| < |sub|
    ensures !Contains(s, sub)
  {
    ContainsIffOccurs(s, sub);
  }

  /** A string none of whose characters is `c` cannot contain a `sub` that has `c` at position `j`. */
  lemma MissingCharNeverContains(s: string, sub: string, j: int)
    requires 0 <= j < |sub|
    requires forall k :: 0 <= k < |s| ==> s[k] != sub[j]
    ensures !Contains(s, sub)
  {
    ContainsIffOccurs(s, sub);
  }

  function DigitChar(d: nat): char
    requires d < 10
  {
    "0123456789"[d]
  }

  predicate IsDigit(c: char) {
    '0' <= c <= '9'
  }

  /** `DigitChar` and `DigitValue` are inverse. */
  lemma DigitCharValue(d: nat)
    requires d < 10
    ensures IsDigit(DigitChar(d)) && DigitValue(DigitChar(d)) == d
  {
  }

  /** ... in the other direction too. */
  lemma DigitValueChar(c: char)
    requires IsDigit(c)
    ensures DigitValue(c) < 10 && DigitChar(DigitValue(c)) == c
  {
  }

  function DigitValue(c: char): nat
    requires IsDigit(c)
  {
    (c - '0') as nat
  }

  /** `str(n)` for a non-negative integer: its decimal digits, no leading zero. */
  function Decimal(n: nat): (r: string)
    ensures |r| >= 1
    ensures forall k :: 0 <= k < |r| ==> IsDigit(r[k])
    ensures |r| > 1 ==> r[0] != '0'
    ensures DigitsValue(r) == n
  {
    if n < 10 then [DigitChar(n)]
    else
      var front := Decimal(n / 10);
      DigitsValueSnoc(front, DigitChar(n % 10));
      front + [DigitChar(n % 10)]
  }

  /** The number a string of digits spells. */
  function DigitsValue(s: string): nat
    requires forall k :: 0 <= k < |s| ==> IsDigit(s[k])
  {
    if |s| == 0 then 0 else 10 * DigitsValue(s[..|s| - 1]) + DigitValue(s[|s| - 1])
  }

  /** The value of a four-digit string. */
  lemma DigitsValueFour(s: string)
    requires |s| == 4 && forall k :: 0 <= k < 4 ==> IsDigit(s[k])
    ensures DigitsValue(s) == ((DigitValue(s[0]) * 10 + DigitValue(s[1])) * 10 + DigitValue(s[2])) * 10 + DigitValue(s[3])
  {
    assert s[..3][..2][..1] == [s[0]];
    assert DigitsValue(s[..3][..2][..1]) == DigitValue(s[0]);
    assert DigitsValue(s[..3][..2]) == DigitValue(s[0]) * 10 + DigitValue(s[1]);
    assert DigitsValue(s[..3]) == (DigitValue(s[0]) * 10 + DigitValue(s[1])) * 10 + DigitValue(s[2]);
  }

  lemma DigitsValueSnoc(s: string, c: char)
    requires forall k :: 0 <= k < |s| ==> IsDigit(s[k])
    requires IsDigit(c)
    ensures forall k :: 0 <= k < |s + [c]| ==> IsDigit((s + [c])[k])
    ensures DigitsValue(s + [c]) == 10 * DigitsValue(s) + DigitValue(c)
  {
    assert (s + [c])[..|s|] == s;
  }

  /** `str` is injective on non-negative integers. */
  lemma DecimalInjective(m: nat, n: nat)
    requires Decimal(m) == Decimal(n)
    ensures m == n
  {
  }
}

=== FILE: weather_routes.dfy ===
/** The weather blueprint under `/api/weather`: three data routes over the
    weather client, the layer table, and the tile proxy. */
module WeatherRoutes {
  import opened Wrappers
  import opened Json
  import opened Text
  import opened WeatherService

  /** A route's answer. `Crashed` is an exception escaping the view, which Flask answers with 500. */
  datatype Response =
    | JsonReply(status: int, body: Json)
    | Image(status: int, content: seq<bv8>, contentType: string, cacheControl: Option<string>)
    | Crashed
  {
    function Status(): int {
      if Crashed? then 500 else status
    }
  }

  function ErrorBody(message: string): Json {
    JObj([("error", JStr(message))])
  }

  /** A route's answer and the caches after it. */
  datatype Served = Served(response: Response, caches: Caches)

  /** `GET /realtime/<city_name>`. */
  function Realtime(c: Caches, up: Upstream, city: string): (r: Served)
    ensures city == "" ==> r == Served(JsonReply(400, ErrorBody("未提供城市名称")), c)
    ensures city != "" ==>
      var s := RealtimeBundle(c, up, city);
      && r.caches == s.caches
      && (r.response.Status() == 404 <==> !TruthyOpt(s.result))
      && (TruthyOpt(s.result) ==> r.response == JsonReply(200, s.result.value))
  {
    if city == "" then Served(JsonReply(400, ErrorBody("未提供城市名称")), c)
    else
      var s := RealtimeBundle(c, up, city);
      if !TruthyOpt(s.result) then Served(JsonReply(404, ErrorBody("找不到城市 '" + city + "' 的天气数据")), s.caches)
      else Served(JsonReply(200, s.result.value), s.caches)
  }

  /** Under the cache invariant the falsiness test is exactly a test for None:
      every bundle is a three-key object. */
  lemma RealtimeNotFoundIffNoBundle(c: Caches, up: Upstream, city: string)
    requires WellFormed(c) && city != ""
    ensures Realtime(c, up, city).response.Status() == 404 <==> RealtimeBundle(c, up, city).result.None?
  {
    if RealtimeBundle(c, up, city).result.Some? {
      BundlesAreShaped(c, up, city);
    }
  }

  /** `GET /history/<city_name>?date=...`; `args` are the query parameters. */
  function History(c: Caches, up: Upstream, city: string, args: map<string, string>): (r: Served)
    ensures "date" !in args || args["date"] == "" ==>
      r == Served(JsonReply(400, ErrorBody("缺少'date'参数, 请使用 ?date=YYYY-MM-DD 格式提供")), c)
    ensures "date" in args && args["date"] != "" ==>
      var s := HistoricalWeather(c, up, city, args["date"]);
      && r.caches == s.caches
      && (r.response.Status() == 404 <==> IsNone(s.result))
      && (!IsNone(s.result) ==> r.response == JsonReply(200, s.result.value))
  {
    if "date" !in args || args["date"] == "" then
      Served(JsonReply(400, ErrorBody("缺少'date'参数, 请使用 ?date=YYYY-MM-DD 格式提供")), c)
    else
      var date := args["date"];
      var s := HistoricalWeather(c, up, city, date);
      if IsNone(s.result) then
        Served(JsonReply(404, ErrorBody("找不到城市 '" + city + "' 或日期 '" + date + "' 的历史数据")), s.caches)
      else Served(JsonReply(200, s.result.value), s.caches)
  }

  /** A date the calendar rejects is a 404 that neither calls upstream nor caches. */
  lemma MalformedDateIsNotFound(c: Caches, up: Upstream, city: string, date: string)
    requires date != "" && ParseDate(date).None? && HistoryKey(city, date) !in c.history
    ensures History(c, up, city, map["date" := date]) == Served(JsonReply(404, ErrorBody("找不到城市 '" + city + "' 或日期 '" + date + "' 的历史数据")), c)
  {
  }

  /** A history body that is JSON `null` is cached as None: this request and
      every later one for the same key answer 404. */
  lemma NullHistoryStaysNotFound(c: Caches, up: Upstream, city: string, date: string)
    requires date != "" && HistoryKey(city, date) !in c.history && ParseDate(date).Some?
    requires TruthyOpt(CoordsFor(c, up, city).result)
    requires up.fetch(HourlyHistory(CoordsFor(c, up, city).result.value, DayWindow(ParseDate(date).value))) == Fetched(JNull)
    ensures var first := History(c, up, city, map["date" := date]);
      && first.response.Status() == 404
      && first.caches.history[HistoryKey(city, date)] == JNull
      && History(first.caches, up, city, map["date" := date]) == Served(first.response, first.caches)
  {
  }

  /** `GET /trends/<city_name>`. */
  function Trends(c: Caches, up: Upstream, city: string): (r: Served)
    ensures var s := ClimateForecast30(c, up, city);
      && r.caches == s.caches
      && (r.response.Status() == 404 <==> IsNone(s.result))
      && (!IsNone(s.result) ==> r.response == JsonReply(200, s.result.value))
  {
    var s := ClimateForecast30(c, up, city);
    if IsNone(s.result) then Served(JsonReply(404, ErrorBody("找不到城市 '" + city + "' 的30天趋势数据")), s.caches)
    else Served(JsonReply(200, s.result.value), s.caches)
  }

  /** The same for a 30-day forecast body that is JSON `null`. */
  lemma NullForecastStaysNotFound(c: Caches, up: Upstream, city: string)
    requires ClimateKey(city) !in c.weather && TruthyOpt(CoordsFor(c, up, city).result)
    requires up.fetch(ClimateForecast(CoordsFor(c, up, city).result.value)) == Fetched(JNull)
    ensures var first := Trends(c, up, city);
      && first.response.Status() == 404
      && first.caches.weather[ClimateKey(city)] == JNull
      && Trends(first.caches, up, city) == Served(first.response, first.caches)
  {
  }

  // ------------------------------------------------------------ tiles

  /** The op codes the proxy lets through. */
  const ValidOps: seq<string> := ["PR0", "TA2", "CL", "WS10", "APM"]

  /** The proxy's whitelist is exactly the set of op codes the layer table advertises. */
  lemma WhitelistMatchesLayers()
    ensures forall op :: op in ValidOps <==> op in LayerOps.Values
  {
    LayerOpsContents();
  }

  /** What the tile request produced: a timeout, another request error, or an answer.
      Header names are matched exactly. */
  datatype TileFetch =
    | TimedOut
    | RequestFailed
    | Answered(status: int, content: seq<bv8>, headers: map<string, string>)

  /** The upstream tile address; `<int:...>` path segments are non-negative. */
  function TileUrl(op: string, z: nat, x: nat, y: nat): string {
    TileHost + op + "/" + Decimal(z) + "/" + Decimal(x) + "/" + Decimal(y)
  }

  /** The proxy's answer and the requests it sent, each an address and its `appid`. */
  datatype Proxied = Proxied(response: Response, sent: seq<(string, string)>)

  /** `GET /map_tile/<op>/<z>/<x>/<y>`. */
  function MapTile(op: string, z: nat, x: nat, y: nat, apiKey: string, get: (string, string) -> TileFetch): (p: Proxied)
    ensures op !in ValidOps <==> p.sent == []
    ensures op !in ValidOps ==> p.response == JsonReply(400, ErrorBody("Invalid layer code"))
    ensures op in ValidOps ==> p.sent == [(TileUrl(op, z, x, y), apiKey)]
    ensures op in ValidOps ==> match get(TileUrl(op, z, x, y), apiKey)
      case TimedOut => p.response == JsonReply(504, ErrorBody("Upstream service timeout"))
      case RequestFailed => p.response == JsonReply(502, ErrorBody("Failed to fetch tile"))
      case Answered(status, content, headers) =>
        if 400 <= status < 600 then p.response == JsonReply(502, ErrorBody("Failed to fetch tile"))
        else if "Content-Type" !in headers then p.response == Crashed
        else (
          && p.response.Image? && p.response.status == 200 && p.response.content == content
          && p.response.contentType == headers["Content-Type"]
          && (p.response.cacheControl.Some? <==> "Cache-Control" in headers)
          && (p.response.cacheControl.Some? ==> p.response.cacheControl.value == headers["Cache-Control"]))
  {
    if op !in ValidOps then Proxied(JsonReply(400, ErrorBody("Invalid layer code")), [])
    else
      var url := TileUrl(op, z, x, y);
      var response :=
        match get(url, apiKey)
        case TimedOut => JsonReply(504, ErrorBody("Upstream service timeout"))
        case RequestFailed => JsonReply(502, ErrorBody("Failed to fetch tile"))
        case Answered(status, content, headers) =>
          if 400 <= status < 600 then JsonReply(502, ErrorBody("Failed to fetch tile"))
          else if "Content-Type" !in headers then Crashed
          else
            var cache := if "Cache-Control" in headers then Some(headers["Cache-Control"]) else None;
            Image(200, content, headers["Content-Type"], cache);
      Proxied(response, [(url, apiKey)])
  }

  /** The address the proxy fetches is the advertised layer template with the
      tile coordinates written in decimal. */
  lemma ProxyFetchesTemplateUrl(op: string, z: nat, x: nat, y: nat, apiKey: string)
    ensures Format(MapUrlTemplate, map["op" := op, "z" := Decimal(z), "x" := Decimal(x), "y" := Decimal(y), "api_key" := apiKey])
         == Ok(TileUrl(op, z, x, y) + "?appid=" + apiKey)
  {
    FilledTemplate(op, Decimal(z), Decimal(x), Decimal(y), apiKey);
  }

  /** `GET /map_layers`. */
  function MapLayers(apiKey: string): (r: map<string, string>)
    ensures r.Keys == LayerOps.Keys
    ensures forall name :: name in r ==> LayerOps[name] in ValidOps
    ensures forall name :: name in r ==> r[name] == TileHost + LayerOps[name] + "/{z}/{x}/{y}?appid=" + apiKey
  {
    WhitelistMatchesLayers();
    MapLayerUrls(apiKey)
  }
}

=== FILE: weather_service.dfy ===
/** The weather client: four fetchers behind two caches, and the map-tile URL
    templates. The network is a parameter; every cache is an unbounded map. */
module WeatherService {
  import opened Wrappers
  import opened Json
  import opened Text

  // ------------------------------------------------------------ dates

  datatype Date = Date(year: int, month: int, day: int)

  predicate IsLeap(year: int) {
    (year % 4 == 0 && year % 100 != 0) || year % 400 == 0
  }

  function DaysInMonth(year: int, month: int): int
    requires 1 <= month <= 12
  {
    if month == 2 then (if IsLeap(year) then 29 else 28)
    else if month == 4 || month == 6 || month == 9 || month == 11 then 30
    else 31
  }

  /** A calendar date `datetime` accepts (years from 1). */
  predicate ValidDate(d: Date) {
    1 <= d.year <= 9999 && 1 <= d.month <= 12 && 1 <= d.day <= DaysInMonth(d.year, d.month)
  }

  predicate IsDigitIn(c: char, lo: char, hi: char) {
    lo <= c <= hi
  }

  function Pad2(n: nat): string
    requires n < 100
  {
    [DigitChar(n / 10), DigitChar(n % 10)]
  }

  /** The texts `%m` reads as month `m`: two digits, or one digit when `m` < 10. */
  predicate MonthSpelling(t: string, m: int) {
    1 <= m <= 12 && (t == Pad2(m) || (m < 10 && t == [DigitChar(m)]))
  }

  /** The texts `%d` reads as day `d` when nothing follows: two digits or, when
      `d` < 10, one digit or a space and one digit. */
  predicate DaySpelling(t: string, d: int) {
    1 <= d <= 31 && (t == Pad2(d) || (d < 10 && (t == [DigitChar(d)] || t == [' ', DigitChar(d)])))
  }

  /** `%m`, the pattern `1[0-2]|0[1-9]|[1-9]` at position `i`: the month and where it ends. */
  function MonthField(s: string, i: nat): (r: Option<(int, nat)>)
    ensures r.Some? ==> i < r.value.1 <= i + 2 && r.value.1 <= |s|
    ensures r.Some? ==> forall k :: i <= k < r.value.1 ==> IsDigit(s[k])
    ensures r.Some? ==> MonthSpelling(s[i..r.value.1], r.value.0)
  {
    if i + 1 < |s| && s[i] == '1' && IsDigitIn(s[i + 1], '0', '2') then
      DigitValueChar(s[i + 1]);
      assert s[i..i + 2] == [s[i], s[i + 1]];
      Some((10 + DigitValue(s[i + 1]), i + 2))
    else if i + 1 < |s| && s[i] == '0' && IsDigitIn(s[i + 1], '1', '9') then
      DigitValueChar(s[i + 1]);
      assert s[i..i + 2] == [s[i], s[i + 1]];
      Some((DigitValue(s[i + 1]), i + 2))
    else if i < |s| && IsDigitIn(s[i], '1', '9') then
      DigitValueChar(s[i]);
      assert s[i..i + 1] == [s[i]];
      Some((DigitValue(s[i]), i + 1))
    else None
  }

  /** `%d`, the pattern `3[01]|[12]\d|0[1-9]|[1-9]| [1-9]`, first alternative that matches. */
  function DayField(s: string, i: nat): (r: Option<(int, nat)>)
    ensures r.Some? ==> i < r.value.1 <= i + 2 && r.value.1 <= |s|
    ensures r.Some? ==> DaySpelling(s[i..r.value.1], r.value.0)
  {
    if i + 1 < |s| && s[i] == '3' && IsDigitIn(s[i + 1], '0', '1') then
      DigitValueChar(s[i + 1]);
      assert s[i..i + 2] == [s[i], s[i + 1]];
      Some((30 + DigitValue(s[i + 1]), i + 2))
    else if i + 1 < |s| && IsDigitIn(s[i], '1', '2') && IsDigit(s[i + 1]) then
      DigitValueChar(s[i]);
      DigitValueChar(s[i + 1]);
      assert s[i..i + 2] == [s[i], s[i + 1]];
      Some((10 * DigitValue(s[i]) + DigitValue(s[i + 1]), i + 2))
    else if i + 1 < |s| && s[i] == '0' && IsDigitIn(s[i + 1], '1', '9') then
      DigitValueChar(s[i + 1]);
      assert s[i..i + 2] == [s[i], s[i + 1]];
      Some((DigitValue(s[i + 1]), i + 2))
    else if i < |s| && IsDigitIn(s[i], '1', '9') then
      DigitValueChar(s[i]);
      assert s[i..i + 1] == [s[i]];
      Some((DigitValue(s[i]), i + 1))
    else if i + 1 < |s| && s[i] == ' ' && IsDigitIn(s[i + 1], '1', '9') then
      DigitValueChar(s[i + 1]);
      assert s[i..i + 2] == [s[i], s[i + 1]];
      Some((DigitValue(s[i + 1]), i + 2))
    else None
  }

  /** `datetime.strptime(s, "%Y-%m-%d")`: four digits, '-', month, '-', day,
      nothing left over, and a date the calendar has; None where it raises ValueError. */
  function ParseDate(s: string): (r: Option<Date>)
    ensures r.Some? ==> ValidDate(r.value)
    ensures r.Some? ==> 8 <= |s| <= 10 && s[4] == '-' && forall k :: 0 <= k < 4 ==> IsDigit(s[k])
  {
    if |s| < 5 || !(IsDigit(s[0]) && IsDigit(s[1]) && IsDigit(s[2]) && IsDigit(s[3])) || s[4] != '-' then None
    else
      var year := DigitsValue(s[..4]);
      match MonthField(s, 5)
      case None => None
      case Some((month, j)) =>
        if j >= |s| || s[j] != '-' then None
        else
          match DayField(s, j + 1)
          case None => None
          case Some((day, end)) =>
            var d := Date(year, month, day);
            if end == |s| && ValidDate(d) then Some(d) else None
  }

  /** The canonical `YYYY-MM-DD` spelling of a date. */
  function FormatDate(d: Date): string
    requires ValidDate(d)
  {
    var y := d.year;
    [DigitChar(y / 10 / 10 / 10), DigitChar(y / 10 / 10 % 10), DigitChar(y / 10 % 10), DigitChar(y % 10)]
      + "-" + Pad2(d.month) + "-" + Pad2(d.day)
  }

  lemma MonthFieldOfPad(s: string, i: nat, m: int)
    requires 1 <= m <= 12 && i + 1 < |s|
    requires s[i] == DigitChar(m / 10) && s[i + 1] == DigitChar(m % 10)
    ensures MonthField(s, i) == Some((m, i + 2))
  {
    DigitCharValue(m / 10);
    DigitCharValue(m % 10);
  }

  lemma DayFieldOfPad(s: string, i: nat, d: int)
    requires 1 <= d <= 31 && i + 1 < |s|
    requires s[i] == DigitChar(d / 10) && s[i + 1] == DigitChar(d % 10)
    ensures DayField(s, i) == Some((d, i + 2))
  {
    DigitCharValue(d / 10);
    DigitCharValue(d % 10);
  }

  lemma YearOfDigits(y: int, s: string)
    requires 1 <= y <= 9999
    requires s == [DigitChar(y / 10 / 10 / 10), DigitChar(y / 10 / 10 % 10), DigitChar(y / 10 % 10), DigitChar(y % 10)]
    ensures forall k :: 0 <= k < 4 ==> IsDigit(s[k])
    ensures DigitsValue(s) == y
  {
    var a, b, c, e := y / 10 / 10 / 10, y / 10 / 10 % 10, y / 10 % 10, y % 10;
    DigitCharValue(a); DigitCharValue(b); DigitCharValue(c); DigitCharValue(e);
    DigitsValueFour(s);
    assert y / 10 / 10 == a * 10 + b;
    assert y / 10 == (a * 10 + b) * 10 + c;
  }

  /** The canonical spelling of every date parses back to it. */
  lemma ParseFormatRoundTrip(d: Date)
    requires ValidDate(d)
    ensures ParseDate(FormatDate(d)) == Some(d)
  {
    var s := FormatDate(d);
    var y := d.year;
    assert |s| == 10 && s[4] == '-' && s[7] == '-';
    YearOfDigits(y, s[..4]);
    assert forall k :: 0 <= k < 4 ==> s[k] == s[..4][k];
    MonthFieldOfPad(s, 5, d.month);
    DayFieldOfPad(s, 8, d.day);
  }

  /** Python also accepts one-digit months and days. */
  lemma ShortFormAccepted()
    ensures ParseDate("2024-1-5") == Some(Date(2024, 1, 5))
  {
    var s := "2024-1-5";
    assert s[..4] == "2024";
    DigitsValueFour(s[..4]);
  }

  /** `s` is a text `%Y-%m-%d` reads as `d`: four digits worth the year, '-',
      a spelling of the month, '-', a spelling of the day, and nothing else. */
  predicate SpelledAs(s: string, d: Date) {
    && |s| >= 5 && (forall k :: 0 <= k < 4 ==> IsDigit(s[k])) && s[4] == '-'
    && DigitsValue(s[..4]) == d.year
    && exists j :: 5 < j < |s| && s[j] == '-' && MonthSpelling(s[5..j], d.month) && DaySpelling(s[j + 1..], d.day)
  }

  /** Every month spelling followed by '-' is read whole. */
  lemma MonthFieldReads(s: string, i: nat, j: nat, m: int)
    requires i <= j < |s| && s[j] == '-' && MonthSpelling(s[i..j], m)
    ensures MonthField(s, i) == Some((m, j))
  {
    var t := s[i..j];
    DigitCharValue(m / 10);
    DigitCharValue(m % 10);
    if t == Pad2(m) {
      assert s[i] == t[0] && s[i + 1] == t[1] && j == i + 2;
    } else {
      DigitCharValue(m);
      assert s[i] == t[0] && j == i + 1;
    }
  }

  /** Every day spelling that ends the text is read whole. */
  lemma DayFieldReads(s: string, i: nat, d: int)
    requires i <= |s| && DaySpelling(s[i..], d)
    ensures DayField(s, i) == Some((d, |s|))
  {
    var t := s[i..];
    DigitCharValue(d / 10);
    DigitCharValue(d % 10);
    if t == Pad2(d) {
      assert s[i] == t[0] && s[i + 1] == t[1] && |s| == i + 2;
    } else if t == [DigitChar(d)] {
      DigitCharValue(d);
      assert s[i] == t[0] && |s| == i + 1;
    } else {
      DigitCharValue(d);
      assert s[i] == t[0] && s[i + 1] == t[1] && |s| == i + 2;
    }
  }

  /** `strptime` accepts exactly the spellings of calendar dates, each as the date it spells. */
  lemma ParseDateIffSpelled(s: string, d: Date)
    ensures ParseDate(s) == Some(d) <==> ValidDate(d) && SpelledAs(s, d)
  {
    if ParseDate(s) == Some(d) {
      var (month, j) := MonthField(s, 5).value;
      var (day, end) := DayField(s, j + 1).value;
      assert s[j + 1..] == s[j + 1..end];
      assert 5 < j < |s| && s[j] == '-' && MonthSpelling(s[5..j], d.month) && DaySpelling(s[j + 1..], d.day);
    }
    if ValidDate(d) && SpelledAs(s, d) {
      var j :| 5 < j < |s| && s[j] == '-' && MonthSpelling(s[5..j], d.month) && DaySpelling(s[j + 1..], d.day);
      MonthFieldReads(s, 5, j, d.month);
      DayFieldReads(s, j + 1, d.day);
    }
  }

  /** The start and end of the history window, local wall-clock time. */
  datatype DateTime = DateTime(date: Date, hour: int, minute: int, second: int)

  datatype Window = Window(start: DateTime, end: DateTime)

  /** Midnight to 23:59:59 of the same day. */
  function DayWindow(d: Date): (w: Window)
    ensures w.start.date == w.end.date == d
    ensures (w.end.hour * 60 + w.end.minute) * 60 + w.end.second
          - ((w.start.hour * 60 + w.start.minute) * 60 + w.start.second) == 24 * 60 * 60 - 1
  {
    var start := DateTime(d, 0, 0, 0);
    Window(start, start.(hour := 23, minute := 59, second := 59))
  }

  // ------------------------------------------------------------ cache keys

  function CoordsKey(city: string): string { "coords_" + city }
  function BundleKey(city: string): string { "bundle_" + city }
  function ClimateKey(city: string): string { "forecast30_" + city }
  function HistoryKey(city: string, date: string): string { "history_" + city + "_" + date }

  /** The three kinds sharing the weather cache never collide, and each is one key per city. */
  lemma WeatherKeysDistinct(a: string, b: string)
    ensures CoordsKey(a) != BundleKey(b) && CoordsKey(a) != ClimateKey(b) && BundleKey(a) != ClimateKey(b)
    ensures CoordsKey(a) == CoordsKey(b) ==> a == b
    ensures BundleKey(a) == BundleKey(b) ==> a == b
    ensures ClimateKey(a) == ClimateKey(b) ==> a == b
  {
    assert CoordsKey(a)[0] == 'c' && BundleKey(b)[0] == 'b' && ClimateKey(b)[0] == 'f';
    assert BundleKey(a)[0] == 'b' && ClimateKey(a)[0] == 'f';
    if CoordsKey(a) == CoordsKey(b) { assert a == CoordsKey(a)[7..] && b == CoordsKey(b)[7..]; }
    if BundleKey(a) == BundleKey(b) { assert a == BundleKey(a)[7..] && b == BundleKey(b)[7..]; }
    if ClimateKey(a) == ClimateKey(b) { assert a == ClimateKey(a)[11..] && b == ClimateKey(b)[11..]; }
  }

  /** For dates the parser accepts, a history key names one (city, date) pair. */
  lemma HistoryKeyInjective(c1: string, d1: string, c2: string, d2: string)
    requires ParseDate(d1).Some? && ParseDate(d2).Some?
    requires HistoryKey(c1, d1) == HistoryKey(c2, d2)
    ensures c1 == c2 && d1 == d2
  {
    var k := HistoryKey(c1, d1);
    assert k == HistoryKey(c2, d2);
    assert d1 == k[|k| - |d1|..];
    assert d2 == k[|k| - |d2|..];
    assert "history_" + c1 == k[..|k| - |d1| - 1];
    assert "history_" + c2 == k[..|k| - |d2| - 1];
    assert c1 == ("history_" + c1)[8..];
    assert c2 == ("history_" + c2)[8..];
  }

  // ------------------------------------------------------------ upstream

  /** What one upstream request yields. `FetchFailed` is a connection error or an
      error status (`raise_for_status`); `Undecodable` passed the status check but
      its body is not JSON, so `res.json()` raises when it is finally read. Both
      are RequestExceptions. */
  datatype Fetch = Fetched(body: Json) | Undecodable | FetchFailed

  /** The geocoder's answer: the list of hits, or a failed request. */
  datatype GeoReply = GeoFailed | GeoHits(hits: seq<(Json, Json)>)

  datatype Endpoint =
    | CurrentWeather(at: Json)
    | FiveDayForecast(at: Json)
    | AirPollution(at: Json)
    | HourlyHistory(at: Json, window: Window)
    | ClimateForecast(at: Json)

  datatype Call = GeocodeCall(city: string) | DataCall(endpoint: Endpoint)

  datatype Upstream = Upstream(geocode: string -> GeoReply, fetch: Endpoint -> Fetch)

  /** The two module-level caches. */
  datatype Caches = Caches(weather: map<string, Json>, history: map<string, Json>)

  /** One fetcher call: its return value, the caches after it, and the upstream calls it made. */
  datatype Step = Step(result: Option<Json>, caches: Caches, calls: seq<Call>)

  /** Nothing cached before is removed or changed. */
  predicate Extends(before: Caches, after: Caches) {
    && (forall k :: k in before.weather ==> k in after.weather && after.weather[k] == before.weather[k])
    && (forall k :: k in before.history ==> k in after.history && after.history[k] == before.history[k])
  }

  function CoordsValue(hit: (Json, Json)): Json {
    JObj([("lat", hit.0), ("lon", hit.1)])
  }

  /** `_get_coords_for_city`. */
  function CoordsFor(c: Caches, up: Upstream, city: string): (s: Step)
    ensures CoordsKey(city) in c.weather ==> s == Step(Some(c.weather[CoordsKey(city)]), c, [])
    ensures CoordsKey(city) !in c.weather ==> s.calls == [GeocodeCall(city)]
    ensures Extends(c, s.caches) && s.caches.history == c.history
    ensures s.result.None? ==> s.caches == c
    ensures s.result.Some? ==> s.caches.weather == c.weather[CoordsKey(city) := s.result.value]
    ensures up.geocode(city) == GeoHits([]) ==> s.result.None? || CoordsKey(city) in c.weather
    ensures CoordsKey(city) !in c.weather ==>
      (s.result.Some? <==> up.geocode(city).GeoHits? && |up.geocode(city).hits| > 0)
    ensures CoordsKey(city) !in c.weather && s.result.Some? ==> s.result.value == CoordsValue(up.geocode(city).hits[0])
  {
    var key := CoordsKey(city);
    if key in c.weather then Step(Some(c.weather[key]), c, [])
    else
      match up.geocode(city)
      case GeoFailed => Step(None, c, [GeocodeCall(city)])
      case GeoHits(hits) =>
        if |hits| == 0 then Step(None, c, [GeocodeCall(city)])
        else
          var coords := CoordsValue(hits[0]);
          Step(Some(coords), c.(weather := c.weather[key := coords]), [GeocodeCall(city)])
  }

  /** The exact shape of a realtime bundle. */
  predicate BundleShaped(v: Json) {
    v.JObj? && |v.fields| == 3
    && v.fields[0].0 == "current" && v.fields[1].0 == "forecast" && v.fields[2].0 == "air_quality"
  }

  /** Every bundle key of the weather cache holds a bundle. */
  predicate WellFormed(c: Caches) {
    forall k :: k in c.weather && StartsWith(k, "bundle_") ==> BundleShaped(c.weather[k])
  }

  lemma CoordsKeyIsNotBundle(city: string)
    ensures !StartsWith(CoordsKey(city), "bundle_")
  {
    assert CoordsKey(city)[0] == 'c';
  }

  lemma ClimateKeyIsNotBundle(city: string)
    ensures !StartsWith(ClimateKey(city), "bundle_")
  {
    assert ClimateKey(city)[0] == 'f';
  }

  /** `get_realtime_weather_bundle`. */
  function RealtimeBundle(c: Caches, up: Upstream, city: string): (s: Step)
    ensures BundleKey(city) in c.weather ==> s == Step(Some(c.weather[BundleKey(city)]), c, [])
    ensures Extends(c, s.caches) && s.caches.history == c.history
    ensures s.result.Some? ==> BundleKey(city) in s.caches.weather && s.caches.weather[BundleKey(city)] == s.result.value
    ensures s.result.None? ==> BundleKey(city) !in s.caches.weather
    ensures forall k :: k in s.caches.weather && k !in c.weather ==> k == CoordsKey(city) || k == BundleKey(city)
    ensures BundleKey(city) !in c.weather && s.result.Some? ==> BundleShaped(s.result.value)
    ensures WellFormed(c) ==> WellFormed(s.caches)
    ensures BundleKey(city) !in c.weather ==>
      (s.result.Some? <==>
        && TruthyOpt(CoordsFor(c, up, city).result)
        && var at := CoordsFor(c, up, city).result.value;
           up.fetch(CurrentWeather(at)).Fetched? && up.fetch(FiveDayForecast(at)).Fetched? && up.fetch(AirPollution(at)).Fetched?)
    ensures BundleKey(city) !in c.weather && s.result.Some? ==>
      var at := CoordsFor(c, up, city).result.value;
      s.result.value == JObj([("current", up.fetch(CurrentWeather(at)).body),
                              ("forecast", up.fetch(FiveDayForecast(at)).body),
                              ("air_quality", up.fetch(AirPollution(at)).body)])
  {
    var key := BundleKey(city);
    if key in c.weather then Step(Some(c.weather[key]), c, [])
    else
      WeatherKeysDistinct(city, city);
      CoordsKeyIsNotBundle(city);
      var g := CoordsFor(c, up, city);
      if !TruthyOpt(g.result) then Step(None, g.caches, g.calls)
      else
        var at := g.result.value;
        var calls1 := g.calls + [DataCall(CurrentWeather(at))];
        var calls2 := calls1 + [DataCall(FiveDayForecast(at))];
        var calls3 := calls2 + [DataCall(AirPollution(at))];
        var current, forecast, air := up.fetch(CurrentWeather(at)), up.fetch(FiveDayForecast(at)), up.fetch(AirPollution(at));
        if current.FetchFailed? then Step(None, g.caches, calls1)
        else if forecast.FetchFailed? then Step(None, g.caches, calls2)
        else if air.FetchFailed? then Step(None, g.caches, calls3)
        else if !(current.Fetched? && forecast.Fetched? && air.Fetched?) then Step(None, g.caches, calls3)
        else
          var bundle := JObj([("current", current.body), ("forecast", forecast.body), ("air_quality", air.body)]);
          Step(Some(bundle), g.caches.(weather := g.caches.weather[key := bundle]), calls3)
  }

  /** Under the cache invariant, every bundle returned, fresh or cached, has exactly the three keys. */
  lemma BundlesAreShaped(c: Caches, up: Upstream, city: string)
    requires WellFormed(c)
    requires RealtimeBundle(c, up, city).result.Some?
    ensures BundleShaped(RealtimeBundle(c, up, city).result.value)
  {
    if BundleKey(city) in c.weather {
      assert StartsWith(BundleKey(city), "bundle_");
    }
  }

  /** A bundle is built only when geocoding and all three data calls succeed, in that order. */
  lemma BundleNeedsAllThree(c: Caches, up: Upstream, city: string)
    requires BundleKey(city) !in c.weather
    requires RealtimeBundle(c, up, city).result.Some?
    ensures var s := RealtimeBundle(c, up, city);
      var at := CoordsFor(c, up, city).result.value;
      && up.fetch(CurrentWeather(at)).Fetched?
      && up.fetch(FiveDayForecast(at)).Fetched?
      && up.fetch(AirPollution(at)).Fetched?
      && s.result.value == JObj([("current", up.fetch(CurrentWeather(at)).body),
                                 ("forecast", up.fetch(FiveDayForecast(at)).body),
                                 ("air_quality", up.fetch(AirPollution(at)).body)])
      && s.calls == CoordsFor(c, up, city).calls
           + [DataCall(CurrentWeather(at)), DataCall(FiveDayForecast(at)), DataCall(AirPollution(at))]
  {
  }

  /** Bodies are decoded only after all three status checks: an undecodable first
      answer still lets the other two requests go out, and nothing is cached. */
  lemma UndecodableAfterAllCalls(c: Caches, up: Upstream, city: string)
    requires BundleKey(city) !in c.weather
    requires TruthyOpt(CoordsFor(c, up, city).result)
    requires var at := CoordsFor(c, up, city).result.value;
      && up.fetch(CurrentWeather(at)) == Undecodable
      && !up.fetch(FiveDayForecast(at)).FetchFailed? && !up.fetch(AirPollution(at)).FetchFailed?
    ensures var s := RealtimeBundle(c, up, city);
      var at := CoordsFor(c, up, city).result.value;
      && s.result == None
      && BundleKey(city) !in s.caches.weather
      && s.calls == CoordsFor(c, up, city).calls
           + [DataCall(CurrentWeather(at)), DataCall(FiveDayForecast(at)), DataCall(AirPollution(at))]
  {
  }

  /** `get_historical_weather`. */
  function HistoricalWeather(c: Caches, up: Upstream, city: string, date: string): (s: Step)
    ensures HistoryKey(city, date) in c.history ==> s == Step(Some(c.history[HistoryKey(city, date)]), c, [])
    ensures HistoryKey(city, date) !in c.history && ParseDate(date).None? ==> s == Step(None, c, [])
    ensures Extends(c, s.caches)
    ensures s.result.Some? ==>
      HistoryKey(city, date) in s.caches.history && s.caches.history[HistoryKey(city, date)] == s.result.value
    ensures s.result.None? ==> s.caches.history == c.history
    ensures s.caches.history.Keys <= c.history.Keys + {HistoryKey(city, date)}
    ensures s.caches.weather.Keys <= c.weather.Keys + {CoordsKey(city)}
    ensures WellFormed(c) ==> WellFormed(s.caches)
    ensures HistoryKey(city, date) !in c.history && ParseDate(date).Some? ==>
      var g := CoordsFor(c, up, city);
      && (!TruthyOpt(g.result) ==> s == Step(None, g.caches, g.calls))
      && (TruthyOpt(g.result) ==>
            var e := HourlyHistory(g.result.value, DayWindow(ParseDate(date).value));
            && s.calls == g.calls + [DataCall(e)]
            && (s.result.Some? <==> up.fetch(e).Fetched?)
            && (up.fetch(e).Fetched? ==> s.result == Some(up.fetch(e).body)))
  {
    var key := HistoryKey(city, date);
    if key in c.history then Step(Some(c.history[key]), c, [])
    else
      match ParseDate(date)
      case None => Step(None, c, [])
      case Some(d) =>
        var window := DayWindow(d);
        CoordsKeyIsNotBundle(city);
        var g := CoordsFor(c, up, city);
        if !TruthyOpt(g.result) then Step(None, g.caches, g.calls)
        else
          var endpoint := HourlyHistory(g.result.value, window);
          match up.fetch(endpoint)
          case Fetched(data) =>
            Step(Some(data), g.caches.(history := g.caches.history[key := data]), g.calls + [DataCall(endpoint)])
          case _ => Step(None, g.caches, g.calls + [DataCall(endpoint)])
  }

  /** The history request asks for the whole parsed day, midnight to 23:59:59. */
  lemma HistoryAsksForWholeDay(c: Caches, up: Upstream, city: string, date: string)
    requires HistoryKey(city, date) !in c.history
    requires HistoricalWeather(c, up, city, date).result.Some?
    ensures var calls := HistoricalWeather(c, up, city, date).calls;
      && |calls| > 0 && calls[|calls| - 1].DataCall? && calls[|calls| - 1].endpoint.HourlyHistory?
      && calls[|calls| - 1].endpoint.window.start == DateTime(ParseDate(date).value, 0, 0, 0)
      && calls[|calls| - 1].endpoint.window.end == DateTime(ParseDate(date).value, 23, 59, 59)
  {
  }

  /** A cache hit is served before the date is checked, so a key built from a
      malformed date can still hit an entry stored for another (city, date) pair. */
  lemma HitPrecedesDateCheck(up: Upstream, data: Json)
    ensures HistoryKey("a", "b_2024-01-01") == HistoryKey("a_b", "2024-01-01")
    ensures ParseDate("b_2024-01-01").None?
    ensures var c := Caches(map[], map[HistoryKey("a_b", "2024-01-01") := data]);
      HistoricalWeather(c, up, "a", "b_2024-01-01").result == Some(data)
  {
    assert HistoryKey("a", "b_2024-01-01") == HistoryKey("a_b", "2024-01-01");
  }

  /** `get_30_day_forecast`. */
  function ClimateForecast30(c: Caches, up: Upstream, city: string): (s: Step)
    ensures ClimateKey(city) in c.weather ==> s == Step(Some(c.weather[ClimateKey(city)]), c, [])
    ensures Extends(c, s.caches) && s.caches.history == c.history
    ensures s.result.Some? ==> ClimateKey(city) in s.caches.weather && s.caches.weather[ClimateKey(city)] == s.result.value
    ensures s.result.None? ==> ClimateKey(city) !in s.caches.weather
    ensures s.caches.weather.Keys <= c.weather.Keys + {CoordsKey(city), ClimateKey(city)}
    ensures WellFormed(c) ==> WellFormed(s.caches)
    ensures ClimateKey(city) !in c.weather ==>
      var g := CoordsFor(c, up, city);
      && (!TruthyOpt(g.result) ==> s == Step(None, g.caches, g.calls))
      && (TruthyOpt(g.result) ==>
            var e := ClimateForecast(g.result.value);
            && s.calls == g.calls + [DataCall(e)]
            && (s.result.Some? <==> up.fetch(e).Fetched?)
            && (up.fetch(e).Fetched? ==> s.result == Some(up.fetch(e).body)))
  {
    var key := ClimateKey(city);
    if key in c.weather then Step(Some(c.weather[key]), c, [])
    else
      WeatherKeysDistinct(city, city);
      CoordsKeyIsNotBundle(city);
      ClimateKeyIsNotBundle(city);
      var g := CoordsFor(c, up, city);
      if !TruthyOpt(g.result) then Step(None, g.caches, g.calls)
      else
        var endpoint := ClimateForecast(g.result.value);
        match up.fetch(endpoint)
        case Fetched(data) =>
          Step(Some(data), g.caches.(weather := g.caches.weather[key := data]), g.calls + [DataCall(endpoint)])
        case _ => Step(None, g.caches, g.calls + [DataCall(endpoint)])
  }

  /** A city the geocoder does not know yields None and caches nothing. */
  lemma UnknownCityCachesNothing(c: Caches, up: Upstream, city: string)
    requires up.geocode(city) == GeoHits([]) || up.geocode(city) == GeoFailed
    requires CoordsKey(city) !in c.weather && BundleKey(city) !in c.weather && ClimateKey(city) !in c.weather
    ensures RealtimeBundle(c, up, city) == Step(None, c, [GeocodeCall(city)])
    ensures ClimateForecast30(c, up, city) == Step(None, c, [GeocodeCall(city)])
  {
  }

  // ------------------------------------------------------------ map tiles

  /** A `str.format` template, already split into literal text and `{name}` fields. */
  datatype Piece = Lit(text: string) | Field(name: string)

  /** One piece's text; a field with no argument raises KeyError. */
  function PieceText(p: Piece, args: map<string, string>): (r: Result<string>)
    ensures r.Raised? <==> p.Field? && p.name !in args
  {
    match p
    case Lit(t) => Ok(t)
    case Field(n) => if n in args then Ok(args[n]) else Raised
  }

  /** `str.format(**args)`: the pieces' texts in order, or KeyError for a missing field. */
  function Format(template: seq<Piece>, args: map<string, string>): (r: Result<string>)
    ensures r.Ok? ==> forall i :: 0 <= i < |template| && template[i].Field? ==> template[i].name in args
    ensures (forall i :: 0 <= i < |template| ==> template[i].Lit?) ==> r.Ok?
  {
    if |template| == 0 then Ok("")
    else
      var front :- Format(template[..|template| - 1], args);
      var last :- PieceText(template[|template| - 1], args);
      Ok(front + last)
  }

  /** Filling raises exactly when some field has no argument. */
  lemma {:induction false} FormatRaisesIffMissing(template: seq<Piece>, args: map<string, string>)
    ensures Format(template, args).Raised?
        <==> exists i :: 0 <= i < |template| && template[i].Field? && template[i].name !in args
  {
    if |template| > 0 {
      var n := |template| - 1;
      FormatRaisesIffMissing(template[..n], args);
      assert forall i :: 0 <= i < n ==> template[..n][i] == template[i];
    }
  }

  /** Filling a prefix one piece longer appends that piece's text. */
  lemma FormatSnoc(template: seq<Piece>, k: nat, args: map<string, string>)
    requires k < |template|
    ensures Format(template[..k + 1], args)
         == (if Format(template[..k], args).Ok? && PieceText(template[k], args).Ok?
             then Ok(Format(template[..k], args).value + PieceText(template[k], args).value)
             else Raised)
  {
    assert template[..k + 1][..k] == template[..k];
    assert template[..k + 1][k] == template[k];
  }

  const TileHost: string := "https://maps.openweathermap.org/maps/2.0/weather/"

  const MapUrlTemplate: seq<Piece> :=
    [Lit(TileHost), Field("op"), Lit("/"), Field("z"), Lit("/"), Field("x"), Lit("/"), Field("y"),
     Lit("?appid="), Field("api_key")]

  /** Layer name to OpenWeatherMap operation code. */
  const LayerOps: map<string, string> :=
    map["precipitation" := "PR0", "temperature" := "TA2", "clouds" := "CL", "wind_speed" := "WS10", "pressure" := "APM"]

  lemma LayerOpsContents()
    ensures LayerOps.Keys == {"precipitation", "temperature", "clouds", "wind_speed", "pressure"}
    ensures LayerOps.Values == {"PR0", "TA2", "CL", "WS10", "APM"}
  {
    assert LayerOps["precipitation"] == "PR0" && LayerOps["temperature"] == "TA2" && LayerOps["clouds"] == "CL";
    assert LayerOps["wind_speed"] == "WS10" && LayerOps["pressure"] == "APM";
  }

  /** The template filled for one layer: `{z}`, `{x}` and `{y}` are substituted by themselves. */
  function LayerUrl(op: string, apiKey: string): Result<string> {
    Format(MapUrlTemplate, map["op" := op, "z" := "{z}", "x" := "{x}", "y" := "{y}", "api_key" := apiKey])
  }

  /** The first piece: the host. */
  lemma FormatMapUrlHost(args: map<string, string>)
    ensures Format(MapUrlTemplate[..1], args) == Ok(TileHost)
  {
    var t := MapUrlTemplate;
    assert t[..0] == [];
    FormatSnoc(t, 0, args);
    assert "" + TileHost == TileHost;
  }

  /** The first five pieces: host, op code, '/', z, '/'. */
  lemma FormatMapUrlHead(args: map<string, string>)
    requires "op" in args && "z" in args
    ensures Format(MapUrlTemplate[..5], args) == Ok(TileHost + args["op"] + "/" + args["z"] + "/")
  {
    var t := MapUrlTemplate;
    FormatMapUrlHost(args);
    FormatSnoc(t, 1, args);
    var u1 := TileHost + args["op"];
    assert Format(t[..2], args) == Ok(u1);
    FormatSnoc(t, 2, args);
    var u2 := u1 + "/";
    assert Format(t[..3], args) == Ok(u2);
    FormatSnoc(t, 3, args);
    var u3 := u2 + args["z"];
    assert Format(t[..4], args) == Ok(u3);
    FormatSnoc(t, 4, args);
  }

  /** The tile template filled from any arguments naming its five fields. */
  lemma FormatMapUrl(args: map<string, string>)
    requires "op" in args && "z" in args && "x" in args && "y" in args && "api_key" in args
    ensures Format(MapUrlTemplate, args)
         == Ok(TileHost + args["op"] + "/" + args["z"] + "/" + args["x"] + "/" + args["y"] + "?appid=" + args["api_key"])
  {
    var t := MapUrlTemplate;
    FormatMapUrlHead(args);
    var u4 := TileHost + args["op"] + "/" + args["z"] + "/";
    FormatSnoc(t, 5, args);
    var u5 := u4 + args["x"];
    assert Format(t[..6], args) == Ok(u5);
    FormatSnoc(t, 6, args);
    var u6 := u5 + "/";
    assert Format(t[..7], args) == Ok(u6);
    FormatSnoc(t, 7, args);
    var u7 := u6 + args["y"];
    assert Format(t[..8], args) == Ok(u7);
    FormatSnoc(t, 8, args);
    var u8 := u7 + "?appid=";
    assert Format(t[..9], args) == Ok(u8);
    FormatSnoc(t, 9, args);
    assert t[..10] == t;
  }

  /** The tile template filled with five strings. */
  lemma FilledTemplate(op: string, z: string, x: string, y: string, apiKey: string)
    ensures Format(MapUrlTemplate, map["op" := op, "z" := z, "x" := x, "y" := y, "api_key" := apiKey])
         == Ok(TileHost + op + "/" + z + "/" + x + "/" + y + "?appid=" + apiKey)
  {
    var args := map["op" := op, "z" := z, "x" := x, "y" := y, "api_key" := apiKey];
    FormatMapUrl(args);
    assert args["op"] == op && args["z"] == z && args["x"] == x && args["y"] == y && args["api_key"] == apiKey;
  }

  /** A filled layer template is the host, the op code, the literal placeholders and the key. */
  lemma LayerUrlShape(op: string, apiKey: string)
    ensures LayerUrl(op, apiKey) == Ok(TileHost + op + "/{z}/{x}/{y}?appid=" + apiKey)
  {
    FilledTemplate(op, "{z}", "{x}", "{y}", apiKey);
    var h := TileHost + op;
    assert h + "/" + "{z}" + "/" + "{x}" + "/" + "{y}" + "?appid=" == h + "/{z}/{x}/{y}?appid=";
  }

  /** `get_map_layer_urls`: one URL per layer name, built from that layer's op code. */
  function MapLayerUrls(apiKey: string): (urls: map<string, string>)
    ensures urls.Keys == LayerOps.Keys
    ensures forall name :: name in urls ==> urls[name] == TileHost + LayerOps[name] + "/{z}/{x}/{y}?appid=" + apiKey
  {
    assert forall name :: name in LayerOps ==> LayerUrl(LayerOps[name], apiKey).Ok? by {
      forall name | name in LayerOps ensures LayerUrl(LayerOps[name], apiKey).Ok? {
        LayerUrlShape(LayerOps[name], apiKey);
      }
    }
    var urls := map name | name in LayerOps :: LayerUrl(LayerOps[name], apiKey).value;
    assert forall name :: name in urls ==> urls[name] == TileHost + LayerOps[name] + "/{z}/{x}/{y}?appid=" + apiKey by {
      forall name | name in urls ensures urls[name] == TileHost + LayerOps[name] + "/{z}/{x}/{y}?appid=" + apiKey {
        LayerUrlShape(LayerOps[name], apiKey);
      }
    }
    urls
  }
}

=== FILE: wrappers.dfy ===
/** Failure-carrying wrappers shared by every module of the model. */
module Wrappers {

  /** A value that may be absent (Python's `None`). */
  datatype Option<+T> = None | Some(value: T) {
    predicate IsFailure() { None? }

    function PropagateFailure<U>(): Option<U>
      requires None?
    {
      None
    }

    function Extract(): T
      requires Some?
    {
      value
    }

    function GetOr(default: T): T {
      match this
      case Some(v) => v
      case None => default
    }
  }

  /** The outcome of a Python call: a returned value, or an exception that
      escaped it (the model does not distinguish exception classes where no
      caller does). */
  datatype Result<+T> = Ok(value: T) | Raised {
    predicate IsFailure() { Raised? }

    function PropagateFailure<U>(): Result<U>
      requires Raised?
    {
      Raised
    }

    function Extract(): T
      requires Ok?
    {
      value
    }
  }
}
